=== FILE: README.md ===
# File name manager: a verified model of its renaming core

The file name manager (`name.py`) renames every file of a `Files` folder in one
batch. It can apply five operations:

1. add a prefix;
2. replace spaces by underscores;
3. lowercase;
4. uppercase;
5. replace accented and special characters.

You choose either one operation or a comma-separated list of them. The list
is parsed and put into a fixed pipeline order. Before renaming, the program
can narrow the files to those with given endings. A single operation skips
the files that already satisfy it. After a confirmation, the program renames
the files one by one against the directory and prints a summary.

This project models that core in Dafny:

- Directories are sets of names; the answers typed at the prompts are plain inputs.
- `Text` covers the handful of Python string methods the program relies on:
  - `strip` with Python's whitespace set;
  - `split`;
  - single-character `replace`;
  - `lower`/`upper`/`islower`/`isupper` on the ASCII and Latin-1 letter pairs;
  - `startswith`/`endswith`.
- `Seqs` holds generic sequence facts: `Filter`, subsequences and multisets.
- `SpecialChars` holds the 24-entry `SPECIAL_CHAR_REPLACEMENTS` table and the
  sequential substitution loop. It proves the loop equals a one-pass
  per-character translation because no replacement contains a key.
- `Operations` covers:
  - parsing a comma-separated choice;
  - `sort_ops`, modelled as a stable insertion sort on priorities plus the
    case-operation rule;
  - `apply_ops`.
- `Filtering` covers `filter_files` and the selection step around it.
- `Renaming` covers:
  - the skip/process split of `process_files_with_condition`;
  - the per-file decision of `rename_files` and its fold over the directory;
  - the figures of `show_summary`.
- `Flows` covers one whole run:
  - `process_choice`;
  - `process_single` with the five single operations and their conditions;
  - `process_multiple`.

Three facts about `name.py` that are easy to get wrong:

- The character table has 24 entries, the umlauts and 'ß' among them.
- A multi-operation choice keeps duplicate operations: `"2,2"` plans two
  space replacements.
- A file whose new name equals its old name counts in the printed error
  figure (`total - success`). See "Findings".

## Model

| member | source | states |
|---|---|---|
| SpecialChars.HasSpecialChars | name.py:333-334 | Some character of the name is a key of the table. `SpecialChars.ReplaceChangesIffSpecial` proves it holds exactly when the replacement changes the name. |
| SpecialChars.ReplaceAll | name.py:336-340 | The loop replacing each key of a table, in table order. `SpecialChars.SequentialIsTranslation` proves it equal to a one-pass translation when no value holds a key. |
| SpecialChars.TableValuesFree | name.py:4-11 | No replacement text in the table contains a character that is itself a key. |
| SpecialChars.SequentialIsTranslation | name.py:222-223 | For a table whose values hold no key, the loop replacing each key in table order equals replacing each character of the name by its table image in one pass. |
| SpecialChars.ReplaceSpecialChars | name.py:336-340 | The result holds no key of the table and is the one-pass translation of the name. |
| SpecialChars.ReplaceSpecialCharsIdempotent | name.py:336-340 | Replacing special characters twice gives the same name as doing it once. |
| SpecialChars.ReplaceChangesIffSpecial | name.py:333-340 | The replacement changes a name exactly when the name holds a key of the table (`has_special_chars`). |
| Text.StripTrimmed | name.py:52 | `strip()` leaves no whitespace at either end. |
| Text.StripWraps | name.py:52 | The original text is the stripped text with only whitespace before and after it. |
| Text.StripEmptyIffBlank | name.py:52-53 | The stripped text is empty exactly when the original is all whitespace. |
| Text.StripIdempotent | name.py:143 | Stripping twice equals stripping once. |
| Text.Split | name.py:51 | `split(',')` gives at least one piece, no piece holds a comma, and joining the pieces with commas gives the input back. |
| Text.SplitJoin | name.py:142 | Splitting a text joined from comma-free pieces gives those pieces back. |
| Text.ReplaceChar | name.py:216 | `replace(c, t)`: the result holds `c` only if `t` does, every other character comes from the text or from `t`, and a text without `c` is returned unchanged. `Text.ReplaceCharPointwise` gives the position-by-position result for a one-character `t`. |
| Text.Strip | name.py:52 | Defined by index: the text between the leading and the trailing whitespace. `Text.StripTrimmed`, `Text.StripWraps`, `Text.StripEmptyIffBlank` and `Text.StripIdempotent` state what it returns. |
| Text.Lower | name.py:218 | Lowercasing keeps the length and leaves no capital; each capital becomes its own small letter, 32 code points above it; every other character is kept. |
| Text.Upper | name.py:220 | Uppercasing keeps the length and leaves no small letter; each small letter becomes its own capital, 32 code points below it; every other character is kept. |
| Text.IsLower | name.py:309 | `islower()`: some cased character and no upper-case one. `Text.LowerFixedIffNoUpper` relates it to lowercasing. |
| Text.IsUpper | name.py:322 | `isupper()`: some cased character and no lower-case one. `Text.UpperFixedIffNoLower` relates it to uppercasing. |
| Text.LowerFixedIffNoUpper | name.py:309-310 | Lowercasing leaves a name unchanged exactly when it holds no upper-case letter. |
| Text.UpperFixedIffNoLower | name.py:322-323 | Uppercasing leaves a name unchanged exactly when it holds no lower-case letter. |
| Text.UpperUndoesLower | name.py:218-220 | Uppercasing gives back a text without small letters after it was lowercased. |
| Text.LowerUndoesUpper | name.py:218-220 | Lowercasing gives back a text without capitals after it was uppercased. |
| Operations.FromId | name.py:13-19 | Every token maps to an operation whose identifier is that token; the operation is known exactly when the token is one of "1" to "5". |
| Operations.ParseOps | name.py:141-145 | The parsed operations are all known; their identifiers are a subsequence of the stripped tokens; every valid name occurs as often as among the tokens (duplicates kept, anything else dropped). |
| Operations.ParseJoinedOps | name.py:141-145 | Writing known operations comma-separated and parsing them gives the same operations in the same order, the empty list included. |
| Operations.Tokens | name.py:142-143 | One token per comma-separated piece, each the piece stripped of whitespace. |
| Operations.Priority | name.py:197 | The `priority` table: prefix 1, special characters 2, spaces 3, both case operations 4, anything else 5. `Operations.SortOpsOrder` states the order it induces. |
| Operations.SortByPriority | name.py:200 | The result is ordered by priority; `Operations.SortPermutes`, `Operations.SortStable` and `Operations.StableSortUnique` state that it is the stable sort. |
| Operations.SortPermutes | name.py:200 | The priority sort of the other operations is a permutation of them. |
| Operations.SortStable | name.py:200 | The sort is stable: the operations of each priority keep their relative order. |
| Operations.StableSortUnique | name.py:200 | Any sequence sorted by priority that keeps each priority class in input order is the sort's result. |
| Operations.SortOpsOrder | name.py:196-207 | In the planned pipeline every prefix step comes before every other step, every special-character step before every space step, and the case steps come last. |
| Operations.SortOpsResolvesConflict | name.py:202-203 | When both case operations were chosen, the plan is the other operations plus one uppercase step, which is the last step; no lowercase step remains. |
| Operations.SortOpsPermutes | name.py:198-207 | Without the case conflict, the plan is a permutation of the chosen operations, duplicates included. |
| Operations.SortOpsKeepsPlain | name.py:196-207 | An operation other than lowercase or uppercase is in the plan exactly when it was chosen. |
| Operations.SortOpsLastStep | name.py:202-207 | When a case operation was chosen, the last step is uppercase if uppercase was chosen and lowercase otherwise. |
| Operations.SortOpsIsCanonical | name.py:196-207 | For known operations, the plan is a fixed function of how many of each operation were chosen. |
| Operations.SortOpsOrderIndependent | name.py:196-207 | Two choices holding the same operations the same number of times, in any order, give the same plan. |
| Operations.SortOps | name.py:196-207 | The other operations sorted stably by priority, then the case operations, with a single uppercase when both were chosen. `Operations.SortOpsOrder`, `Operations.SortOpsPermutes`, `Operations.SortOpsResolvesConflict` and `Operations.SortOpsIsCanonical` state what it returns. |
| Operations.ApplyOp | name.py:212-223 | Prefixing gives `prefix + name`; replacing spaces keeps the length and leaves no space; special-character replacement leaves no key of the table; an unknown operation changes nothing. The case steps are `Text.Lower` and `Text.Upper`. |
| Operations.SpacesStepUnderscores | name.py:216 | The space step turns each space into an underscore and keeps every other character in place. |
| Operations.ApplyOps | name.py:209-225 | The steps applied left to right. `Operations.ApplyOpsAppend`, `Operations.UnknownOpsKeepName` and the `Planned` lemmas below state its properties. |
| Operations.UnknownOpsKeepName | name.py:209-225 | An empty pipeline, or one of unrecognised operations only, returns the name unchanged. |
| Operations.ApplyOpsAppend | name.py:209-225 | Applying two pipelines one after the other equals applying their concatenation. |
| Operations.CaseResolutionPreservesResult | name.py:202-203 | Dropping a lowercase step placed just before an uppercase step does not change the resulting name. |
| Operations.PlannedUppercase | name.py:196-225 | When uppercase was chosen, the planned pipeline's result holds no lower-case letter. |
| Operations.PlannedLowercase | name.py:196-225 | When lowercase but not uppercase was chosen, the result holds no upper-case letter. |
| Operations.PlannedNoSpaces | name.py:196-225 | When space replacement was chosen, the result holds no space, whatever the prefix. |
| Operations.PlannedNoSpecial | name.py:196-225 | When special-character replacement was chosen and the plan does not end by lowercasing, the result holds no key of the table, whatever the prefix. |
| Operations.LowercaseBringsBackSpecial | name.py:196-225 | "3,5" is planned as replacement then lowercasing; on "École.txt", which holds no key, the result holds the key 'é'. |
| Filtering.Normalise | name.py:52-56 | A typed extension becomes one that starts with a dot and has no upper-case letter, one character longer exactly when it had no dot; after the added dot it is the typed text lowercased. |
| Filtering.NormaliseForgiving | name.py:54-56 | Typing an extension with or without its dot, or in another letter case, gives the same normalised extension. |
| Filtering.NormaliseIdempotent | name.py:54-56 | A normalised extension is its own normal form. |
| Filtering.ExtensionsNormalised | name.py:50-56 | Every usable extension is normalised. |
| Filtering.ExtensionsOf | name.py:50-56 | The usable extensions are exactly one normalised extension per piece that is not blank once stripped, in the order typed, and no more than the pieces. |
| Filtering.NoExtensionsIffBlank | name.py:50-59 | No usable extension results exactly when every comma-separated piece is blank. |
| Filtering.FilterFiles | name.py:46-67 | A blank input returns the files unchanged; otherwise every file returned ends, lowercased, with a typed extension. |
| Filtering.Matches | name.py:63-64 | The test applied to each file: its lowercased name ends with one of the extensions. `Filtering.FilterFilesExact` states that the filter keeps exactly the files it accepts. |
| Filtering.FilterFilesExact | name.py:61-67 | For a non-blank input the result is an ordered subsequence of the files holding each matching file exactly as often as the listing does and no other file. |
| Filtering.SelectFiles | name.py:87-101 | A missing directory and an empty listing are refused as such; a selection is non-empty and an ordered subsequence of the listing; with no endings typed it is the whole listing, and otherwise exactly the listed files that `filter_files` keeps. |
| Filtering.NoMatchingFilesIff | name.py:93-98 | The selection is refused for lack of matches exactly when usable endings were typed and no listed file ends with any of them. |
| Renaming.Classify | name.py:237-238 | Every file to process meets the condition and every skipped file fails it. |
| Renaming.ClassifyPartitions | name.py:237-238 | Both lists keep the listing order, and together they hold every file exactly as often as the listing does. |
| Renaming.NothingToProcessIff | name.py:240-243 | There is nothing to process exactly when no file meets the condition. |
| Renaming.Decide | name.py:384-394 | Exactly one of four outcomes: unchanged exactly when the new name equals the old one; "already exists" exactly when it differs and is taken; a failed move exactly when it differs, is free and the file is gone; otherwise renamed to the new name. |
| Renaming.Apply | name.py:385-386 | Only a rename changes the directory: the old name leaves, the new one arrives, nothing else changes and the size is kept. |
| Renaming.RenameFiles | name.py:375-396 | One outcome per file, and the directory keeps its size: no name is lost or overwritten. |
| Renaming.SameNameIff | name.py:385-390 | A file is reported as keeping its name exactly when its new name equals its old one. |
| Renaming.OnlyRenamesChange | name.py:379-396 | Every name added to the directory is the new name of a rename, and every name removed is the old name of a renamed file. |
| Renaming.ListedFilesNeverFail | name.py:379-394 | When the files are distinct names of the directory, no move fails for a missing source. |
| Renaming.CountsAddUp | name.py:379-396 | Every file is exactly one of a success, an error and an unchanged name. |
| Renaming.RenameLoop | name.py:375-396 | The loop's success counter and final directory are those of the fold; the counter is at most the number of files. |
| Renaming.Summarize | name.py:398-407 | The corrected summary of "Findings", not what `show_summary` prints: successes, real errors and unchanged names add up to the total processed, and skipped files are counted apart. |
| Renaming.ErrorsAsWritten | name.py:404 | The error figure as printed, `total - success`; `Renaming.ErrorsAsWrittenCountsUnchanged` shows it counts unchanged names as errors. |
| Renaming.ErrorsAsWrittenCountsUnchanged | name.py:404 | The printed error figure is never negative and equals the real errors plus the unchanged names; it is exact only when no name was unchanged. |
| Flows.Condition | name.py:279-340 | The test each single operation uses to pick the files to process. `Flows.PrefixCondition`, `Flows.SpacesCondition`, `Flows.LowercaseCondition`, `Flows.UppercaseCondition` and `Flows.SpecialCondition` state what each test selects. |
| Flows.PrefixCondition | name.py:279-284 | The prefix test ignores letter case; prefixing always changes a name, and the result is skipped by a second run. |
| Flows.SpacesCondition | name.py:294-297 | A name is processed exactly when replacing its spaces changes it, and the result is skipped by a second run. |
| Flows.LowercaseCondition | name.py:307-310 | Lowercasing leaves a skipped name as it is; a processed name that stays the same is exactly one without letters; a second run skips the result exactly when the name has a letter. |
| Flows.UppercaseCondition | name.py:320-323 | The same for uppercasing. |
| Flows.SpecialCondition | name.py:333-340 | A name is processed exactly when the replacement changes it, and the result is skipped by a second run. |
| Flows.Confirmed | name.py:227-233 | The answer, stripped and lowercased, is "y" or "yes". A completed run has it (`Flows.RunConditioned`, `Flows.RunPipeline`, `Flows.RunMultiple`). |
| Flows.RunConditioned | name.py:235-263 | Stopping changes nothing and happens only when nothing is to be processed or the answer was not yes; it stops for nothing to process exactly when no file meets the condition, and is cancelled exactly when some file does and the answer was not yes; it completes exactly when some file meets the condition and the answer was yes, and then has renamed exactly the files meeting the condition, processed at least one, and processed plus skipped files are all the files. |
| Flows.RunSingle | name.py:110-132 | Stopping changes nothing; the directory keeps its size; a run completes exactly when files were found, the choice is "1" to "5", a prefix was typed if the operation adds one, the answer was yes and some selected file meets the operation's test, and then it has applied the operation to exactly the selected files meeting the test. |
| Flows.RunSingleRefusals | name.py:112-132 | A choice is refused as invalid exactly when files were found and it is not "1" to "5"; a missing prefix stops the run exactly when files were found, the choice is "1" and the prefix answer is blank. |
| Flows.RunPipeline | name.py:158-194 | Stopping changes nothing and happens only for lack of files, a missing prefix or no confirmation; a missing prefix stops it exactly when files were found and the plan adds a prefix; it completes exactly when files were found, a needed prefix was typed and the answer was yes, is cancelled exactly when only the yes is missing, and a completed run has renamed every selected file by the whole plan in order, skipping none. |
| Flows.RunMultiple | name.py:134-194 | Stopping changes nothing and the directory keeps its size; a run completes exactly when the choice names an operation, files were found, a prefix was typed if "1" is among the operations and the answer was yes; it has then renamed every selected file by the planned operations, skipping none. |
| Flows.RunMultipleRefusal | name.py:141-150 | A comma-separated choice is refused exactly when none of its stripped tokens is an operation name. |
| Flows.RunMultipleOrderIndependent | name.py:141-153 | Two choices naming the same operations the same number of times, in any order, run the same way: the same directory and the same report. |
| Flows.RunChoice | name.py:103-108 | Whatever is chosen, the directory keeps its size and a stopped run changes nothing; a choice with a comma is never refused as invalid and one without is never refused for naming no operation; for either kind, when the run completes and what it renames are those of `Flows.RunMultiple` and `Flows.RunSingle`, stated in full. |
| Flows.SkippingKeepsDirectory | name.py:237-261 | Renaming only the files a test selects leaves the directory as renaming all would, when the skipped files would keep their names. |
| Flows.SingleAgreesWithPipeline | name.py:110-194 | For every operation but the prefix, choosing it alone or as a one-step list leaves the directory in the same state. |
| Flows.LowercaseNoOpReportedAsError | name.py:302-313 | Lowercasing a directory holding only "2024" completes with no success, no error and one unchanged name, while the printed error figure is 1. |

## Left out

- The terminal: `show_menu`, `show_preview`, the preview lines, the prompts and
  `main`'s loop. The answers a run reads are inputs (`Flows.Answers`). The
  choice is taken as already stripped, as `main` strips it, and the exit
  choice "6" is handled by `main`, which is not part of this model.
- `get_files`: the existence check and `os.listdir`/`os.path.isfile` become a
  `Filtering.Listing` input, either missing or the listed regular file names.
- `os.rename` errors other than a vanished source (permissions and the
  like): the `except` branch is modelled only as the `Failed` outcome for a
  source no longer in the directory. The race between the existence check
  and the move is also left out, since the model is sequential.
- Path joining: two paths in the folder are taken to be equal exactly when
  the names are, so names holding a path separator are not treated apart.
- Text.Lower: Python's `lower` uses full Unicode case mapping; the model maps
  only the letter pairs 'A'-'Z', 'À'-'Ö' and 'Ø'-'Þ' and treats every other
  character as uncased.
- Text.Upper: the same for `upper`: only those pairs are mapped, so 'ß',
  'ÿ', 'µ' and letters beyond Latin-1 are left as they are (e.g.
  `'ß'.upper() == "SS"` is not modelled).
- Text.IsLower: `islower` counts as cased only the modelled letter pairs, so
  a name whose only letters are 'ß', 'ÿ', 'µ' or beyond Latin-1 has no cased
  character and is not lower case in the model, although it is in Python.
- Text.IsUpper: likewise for `isupper`: only the modelled letter pairs count
  as cased characters.
- Operations.PlannedNoSpecial: does not promise anything when the plan ends by
  lowercasing, because in `name.py` it fails there: `sort_ops` puts the case
  steps after the replacement, so "3,5" on "École.txt" gives "école.txt",
  which holds the key 'é' (`Operations.LowercaseBringsBackSpecial`).
- Renaming.Decide: the directory is a set of exact names, so the existence
  test at name.py:385 is case-sensitive. On a case-insensitive file system
  (the default on Windows and macOS) `os.path.exists` finds "A.txt" when
  asked for "a.txt", so lowercasing "A.txt" there reports that "a.txt"
  exists and renames nothing, while the model renames it.
- The printing in `show_summary` beyond its figures, and the skipped-reason
  labels.

## Findings

| source | as written | input that shows it | evidently intended | confidence | as-written member | corrected member |
|---|---|---|---|---|---|---|
| name.py:404 | The error figure is `total_processed - success_count`, so a processed file whose new name equals its old one (the `pass` branch at name.py:389-390) is printed as an error. | Operation "3" on a folder holding only "2024": `"2024".islower()` is False, so the file is processed; `lower()` leaves it unchanged, and the summary prints "Errors: 1" although nothing failed. | Errors count only name collisions and failed moves; unchanged names are counted apart, so that successes, errors and unchanged names add up to the total. | not executed | Renaming.ErrorsAsWritten, Flows.LowercaseNoOpReportedAsError | Renaming.Summarize |

=== FILE: filtering.dfy ===
/** Choosing the files a run works on: the extension filter `filter_files`
    and the selection step `get_files_with_extensions` that applies it to a
    directory listing. */
module Filtering {
  import opened Seqs
  import opened Text

  /** The shape of a normalised extension: a dot, then no upper-case letter. */
  predicate IsNormalised(e: string)
  {
    |e| >= 1 && e[0] == '.' && NoUpper(e)
  }

  /** One typed extension, already stripped and non-empty, as the filter
      compares it: with a leading dot added when it has none, then lowercased.
      What follows the added dot is the typed text in lower case. */
  function Normalise(t: string): (e: string)
    requires t != []
    ensures IsNormalised(e)
    ensures |e| == if t[0] == '.' then |t| else |t| + 1
    ensures (if t[0] == '.' then e else e[1..]) == Lower(t)
  {
    LowerCons('.', t);
    Lower(if StartsWith(t, ".") then t else "." + t)
  }

  /** A piece of the input that holds an extension: not blank once stripped. */
  function Usable(): string -> bool
  {
    p => Strip(p) != []
  }

  /** The normal form of each piece, stripped. */
  function NormaliseEach(pieces: seq<string>): (r: seq<string>)
    requires forall i :: 0 <= i < |pieces| ==> Strip(pieces[i]) != []
    ensures |r| == |pieces|
  {
    if |pieces| == 0 then [] else [Normalise(Strip(pieces[0]))] + NormaliseEach(pieces[1..])
  }

  /** The usable extensions of a comma-separated input: exactly one
      normalised extension per piece that is not blank, in the order typed. */
  function ExtensionsOf(pieces: seq<string>): (r: seq<string>)
    ensures |r| <= |pieces|
    ensures r == NormaliseEach(Filter(pieces, Usable()))
  {
    if |pieces| == 0 then []
    else
      FilterCons(pieces, Usable());
      var t := Strip(pieces[0]);
      if t == [] then ExtensionsOf(pieces[1..]) else [Normalise(t)] + ExtensionsOf(pieces[1..])
  }

  /** Every usable extension is in normal form. */
  lemma {:induction false} ExtensionsNormalised(pieces: seq<string>)
    ensures forall i :: 0 <= i < |ExtensionsOf(pieces)| ==> IsNormalised(ExtensionsOf(pieces)[i])
  {
    if |pieces| > 0 {
      var rest := ExtensionsOf(pieces[1..]);
      ExtensionsNormalised(pieces[1..]);
      var t := Strip(pieces[0]);
      if t != [] {
        var r := [Normalise(t)] + rest;
        assert ExtensionsOf(pieces) == r;
        forall i | 0 <= i < |r|
          ensures IsNormalised(r[i])
        {
          if i > 0 {
            assert r[i] == rest[i - 1];
          }
        }
      }
    }
  }

  /** There is no usable extension exactly when every piece is blank. */
  lemma {:induction false} NoExtensionsIffBlank(pieces: seq<string>)
    ensures |ExtensionsOf(pieces)| == 0 <==> forall i :: 0 <= i < |pieces| ==> AllSpace(pieces[i])
  {
    if |pieces| > 0 {
      NoExtensionsIffBlank(pieces[1..]);
      StripEmptyIffBlank(pieces[0]);
      assert forall i :: 1 <= i < |pieces| ==> pieces[i] == pieces[1..][i - 1];
    }
  }

  function Extensions(input: string): seq<string>
  {
    ExtensionsOf(Split(input, ','))
  }

  /** The input holds no usable extension: every comma-separated piece is blank. */
  predicate Blank(input: string)
  {
    forall i :: 0 <= i < |Split(input, ',')| ==> AllSpace(Split(input, ',')[i])
  }

  /** The test applied to each file: its lowercased name ends with one of
      the extensions. */
  predicate Matches(file: string, exts: seq<string>)
  {
    exists i :: 0 <= i < |exts| && EndsWith(Lower(file), exts[i])
  }

  function MatchesAny(exts: seq<string>): string -> bool
  {
    f => Matches(f, exts)
  }

  /** `filter_files`: the files whose name ends with one of the typed
      extensions, in listing order; the listing itself when the input is
      empty or holds only blank pieces. */
  function FilterFiles(files: seq<string>, input: string): (r: seq<string>)
    ensures |r| <= |files|
    ensures Blank(input) ==> r == files
    ensures !Blank(input) ==> forall i :: 0 <= i < |r| ==> Matches(r[i], Extensions(input))
  {
    if input == [] then
      assert Blank(input) by { assert Split(input, ',') == [[]]; }
      files
    else
      var exts := Extensions(input);
      NoExtensionsIffBlank(Split(input, ','));
      if |exts| == 0 then files else Filter(files, MatchesAny(exts))
  }

  /** The filter keeps the listing order and loses no matching file: every
      file that matches occurs in the result exactly as often as in the
      listing, and no other file does. */
  lemma FilterFilesExact(files: seq<string>, input: string)
    requires !Blank(input)
    ensures IsSubsequence(FilterFiles(files, input), files)
    ensures forall f :: multiset(FilterFiles(files, input))[f]
                        == if Matches(f, Extensions(input)) then multiset(files)[f] else 0
  {
    var exts := Extensions(input);
    NoExtensionsIffBlank(Split(input, ','));
    FilterSubsequence(files, MatchesAny(exts));
    FilterMultiset(files, MatchesAny(exts));
  }

  /** Typing an extension with or without its dot, in any letter case,
      selects the same files. */
  lemma NormaliseForgiving(t: string)
    requires t != [] && t[0] != '.'
    ensures Normalise("." + t) == Normalise(t)
    ensures Normalise(Lower(t)) == Normalise(t)
    ensures Normalise(Upper(t)) == Normalise(t)
  {
    var u, l := Upper(t), Lower(t);
    assert StartsWith("." + t, ".");
    assert !StartsWith(t, ".") && !StartsWith(u, ".") && !StartsWith(l, ".");
    LowerCons('.', t);
    LowerCons('.', u);
    LowerCons('.', l);
    LowerIdempotent(t);
    LowerAfterUpper(t);
  }

  /** A normalised extension is its own normal form. */
  lemma NormaliseIdempotent(t: string)
    requires t != []
    ensures Normalise(Normalise(t)) == Normalise(t)
  {
    var e := Normalise(t);
    assert StartsWith(e, ".");
    LowerFixedIffNoUpper(e);
  }

  /** What the listing step found. */
  datatype Listing = Missing | Present(names: seq<string>)

  /** The files a run works on, or why there are none. */
  datatype Selection = Selected(files: seq<string>) | NoDirectory | NoFiles | NoMatchingFiles

  /** `get_files_with_extensions`: the listing, narrowed by the extensions
      typed (stripped, as `ask_extensions` returns them) when any were typed. */
  function SelectFiles(listing: Listing, typed: string): (r: Selection)
    ensures r == NoDirectory <==> listing.Missing?
    ensures r == NoFiles <==> listing.Present? && |listing.names| == 0
    ensures r.Selected? ==> |r.files| > 0 && IsSubsequence(r.files, listing.names)
    ensures r.Selected? && Strip(typed) == [] ==> r.files == listing.names
    ensures r.Selected? && Strip(typed) != [] ==> r.files == FilterFiles(listing.names, Strip(typed))
  {
    match listing
    case Missing => NoDirectory
    case Present(names) =>
      if |names| == 0 then NoFiles
      else
        var exts := Strip(typed);
        if exts == [] then
          IsSubsequenceRefl(names);
          Selected(names)
        else
          var files := FilterFiles(names, exts);
          if |files| == 0 then NoMatchingFiles
          else
            SelectedSubsequence(names, exts);
            Selected(files)
  }

  lemma SelectedSubsequence(names: seq<string>, exts: string)
    ensures IsSubsequence(FilterFiles(names, exts), names)
  {
    if Blank(exts) {
      IsSubsequenceRefl(names);
    } else {
      FilterFilesExact(names, exts);
    }
  }

  /** A selection is refused for lack of matching files exactly when
      extensions were typed and no listed file ends with any of them. */
  lemma NoMatchingFilesIff(listing: Listing, typed: string)
    requires listing.Present? && |listing.names| > 0
    ensures SelectFiles(listing, typed) == NoMatchingFiles
            <==> Strip(typed) != [] && !Blank(Strip(typed))
                 && forall i :: 0 <= i < |listing.names| ==> !Matches(listing.names[i], Extensions(Strip(typed)))
  {
    var names, exts := listing.names, Strip(typed);
    if exts != [] && !Blank(exts) {
      var files := FilterFiles(names, exts);
      FilterFilesExact(names, exts);
      if |files| == 0 {
        forall i | 0 <= i < |names|
          ensures !Matches(names[i], Extensions(exts))
        {
          assert names[i] in multiset(names);
        }
      } else {
        assert files[0] in multiset(files);
      }
    }
  }
}

=== FILE: flows.dfy ===
/** One run of the program after the menu: `process_choice` routes a choice
    either to a single operation (`process_single` and the five operation
    functions it dispatches to) or to a pipeline of operations
    (`process_multiple`). The answers typed at the prompts are inputs, as are
    the directory listing and the directory itself. */
module Flows {
  import opened Seqs
  import opened Text
  import opened SpecialChars
  import opened Operations
  import opened Filtering
  import opened Renaming

  /** The answers typed at the prompts a run may show: the file endings, the
      prefix and the confirmation. A prompt that is not shown is not read. */
  datatype Answers = Answers(extensions: string, prefix: string, confirmation: string)

  /** `confirm_operation`: the stripped, lowercased answer is "y" or "yes". */
  predicate Confirmed(answer: string)
  {
    var a := Lower(Strip(answer));
    a == "y" || a == "yes"
  }

  /** Why a run stopped before renaming anything. */
  datatype Reason =
    | Unselected(why: Selection)               // no files to work on
    | InvalidChoice                            // a single choice that names no operation
    | NoValidOperations                        // a comma-separated choice naming none
    | NoPrefix                                 // the prefix answer is blank
    | NothingToProcess                         // every file is skipped
    | Cancelled                                // the confirmation was not given

  datatype Report = Aborted(reason: Reason) | Completed(summary: Summary)

  /** The directory after a run and how the run ended. */
  datatype Run = Run(dir: set<string>, report: Report)

  /** The test a single operation uses to decide which files to process
      (the condition lambdas of `add_prefix`, `replace_spaces`,
      `to_lowercase`, `to_uppercase` and `has_special_chars`). The prefix
      test ignores letter case. */
  function Condition(op: Op, prefix: string): string -> bool
  {
    match op
    case AddPrefix => f => !StartsWith(Lower(f), Lower(prefix))
    case ReplaceSpaces => f => ' ' in f
    case Lowercase => f => !IsLower(f)
    case Uppercase => f => !IsUpper(f)
    case ReplaceSpecial => f => HasSpecialChars(f)
    case Unknown(_) => f => false
  }

  /** The renaming a single operation applies: the same step as in a pipeline. */
  function Transform(op: Op, prefix: string): string -> string
  {
    f => ApplyOp(f, op, prefix)
  }

  /** The renaming a pipeline applies: every planned step in order. */
  function Pipeline(planned: seq<Op>, prefix: string): string -> string
  {
    f => ApplyOps(f, planned, prefix)
  }

  /** The prefix test skips only names that already start with the prefix,
      in any letter case; a processed name changes, and a second run would
      skip it. */
  lemma PrefixCondition(prefix: string, f: string)
    requires prefix != []
    ensures Condition(AddPrefix, prefix)(f) <==> !StartsWith(Lower(f), Lower(prefix))
    ensures ApplyOp(f, AddPrefix, prefix) != f
    ensures !Condition(AddPrefix, prefix)(ApplyOp(f, AddPrefix, prefix))
  {
    LowerAppend(prefix, f);
    assert |prefix + f| != |f|;
    assert (Lower(prefix) + Lower(f))[..|Lower(prefix)|] == Lower(prefix);
  }

  /** The space test is exact: a name is processed exactly when replacing its
      spaces changes it, and the result is skipped by a second run. */
  lemma SpacesCondition(prefix: string, f: string)
    ensures Condition(ReplaceSpaces, prefix)(f) <==> ApplyOp(f, ReplaceSpaces, prefix) != f
    ensures !Condition(ReplaceSpaces, prefix)(ApplyOp(f, ReplaceSpaces, prefix))
  {
    if ' ' in f {
      var i :| 0 <= i < |f| && f[i] == ' ';
      ReplaceCharPointwise(f, ' ', "_");
      assert ApplyOp(f, ReplaceSpaces, prefix)[i] == '_';
    }
  }

  /** The lowercase test skips only names lowercasing leaves alone, but it
      also selects names without any letter, which lowercasing leaves alone
      too: those are exactly the processed names that do not change, and a
      second run processes them again. */
  lemma LowercaseCondition(prefix: string, f: string)
    ensures !Condition(Lowercase, prefix)(f) ==> ApplyOp(f, Lowercase, prefix) == f
    ensures Condition(Lowercase, prefix)(f) && ApplyOp(f, Lowercase, prefix) == f <==> !HasCased(f)
    ensures !Condition(Lowercase, prefix)(ApplyOp(f, Lowercase, prefix)) <==> HasCased(f)
  {
    LowerFixedIffNoUpper(f);
    LowerFixedIffNoUpper(Lower(f));
    if HasCased(f) {
      var i :| 0 <= i < |f| && IsCased(f[i]);
      assert IsCased(Lower(f)[i]);
    }
  }

  /** The uppercase test, symmetrically. */
  lemma UppercaseCondition(prefix: string, f: string)
    ensures !Condition(Uppercase, prefix)(f) ==> ApplyOp(f, Uppercase, prefix) == f
    ensures Condition(Uppercase, prefix)(f) && ApplyOp(f, Uppercase, prefix) == f <==> !HasCased(f)
    ensures !Condition(Uppercase, prefix)(ApplyOp(f, Uppercase, prefix)) <==> HasCased(f)
  {
    UpperFixedIffNoLower(f);
    UpperFixedIffNoLower(Upper(f));
    if HasCased(f) {
      var i :| 0 <= i < |f| && IsCased(f[i]);
      assert IsCased(Upper(f)[i]);
    }
  }

  /** The special-character test is exact, and the result is skipped by a
      second run. */
  lemma SpecialCondition(prefix: string, f: string)
    ensures Condition(ReplaceSpecial, prefix)(f) <==> ApplyOp(f, ReplaceSpecial, prefix) != f
    ensures !Condition(ReplaceSpecial, prefix)(ApplyOp(f, ReplaceSpecial, prefix))
  {
    ReplaceChangesIffSpecial(f);
  }

  /** `process_files_with_condition` (and the same steps written out in
      `replace_special`): classify, stop when nothing is to be done or the
      user declines, otherwise rename the selected files and summarise. */
  function RunConditioned(dir: set<string>, files: seq<string>, cond: string -> bool,
                          transform: string -> string, confirmation: string): (r: Run)
    ensures r.report.Aborted? ==> r.dir == dir
    ensures r.report.Aborted? ==> r.report.reason == NothingToProcess || r.report.reason == Cancelled
    ensures r.report == Aborted(NothingToProcess) <==> forall i :: 0 <= i < |files| ==> !cond(files[i])
    ensures r.report == Aborted(Cancelled)
            <==> (exists i :: 0 <= i < |files| && cond(files[i])) && !Confirmed(confirmation)
    ensures r.report.Completed? <==> (exists i :: 0 <= i < |files| && cond(files[i])) && Confirmed(confirmation)
    ensures r.report.Completed? ==>
              (r.report.summary.total > 0 && r.report.summary.total + r.report.summary.skipped == |files|)
    ensures Confirmed(confirmation) ==> r.dir == RenameFiles(dir, Filter(files, cond), transform).dir
    ensures |r.dir| == |dir|
  {
    var c := Classify(files, cond);
    NothingToProcessIff(files, cond);
    ClassifyPartitions(files, cond);
    if |c.toProcess| == 0 then Run(dir, Aborted(NothingToProcess))
    else if !Confirmed(confirmation) then Run(dir, Aborted(Cancelled))
    else
      var b := RenameFiles(dir, c.toProcess, transform);
      Run(b.dir, Completed(Summarize(b.outcomes, |c.skipped|)))
  }

  /** `process_single`: select the files, check the choice, read the prefix
      when adding one, then run the operation on the files its test selects. */
  function RunSingle(choice: string, listing: Listing, answers: Answers, dir: set<string>): (r: Run)
    ensures r.report.Aborted? ==> r.dir == dir
    ensures |r.dir| == |dir|
    ensures r.report.Completed? <==>
              SelectFiles(listing, answers.extensions).Selected? && IsOperationName(choice)
              && !(FromId(choice).AddPrefix? && Strip(answers.prefix) == []) && Confirmed(answers.confirmation)
              && exists i :: 0 <= i < |SelectFiles(listing, answers.extensions).files|
                             && Condition(FromId(choice), Strip(answers.prefix))(SelectFiles(listing, answers.extensions).files[i])
    ensures r.report.Completed? ==>
              r.report.summary.total > 0
              && r.dir == RenameFiles(dir, Filter(SelectFiles(listing, answers.extensions).files,
                                                  Condition(FromId(choice), Strip(answers.prefix))),
                                      Transform(FromId(choice), Strip(answers.prefix))).dir
  {
    var sel := SelectFiles(listing, answers.extensions);
    if !sel.Selected? then Run(dir, Aborted(Unselected(sel)))
    else if !IsOperationName(choice) then Run(dir, Aborted(InvalidChoice))
    else
      var op := FromId(choice);
      var prefix := Strip(answers.prefix);
      if op.AddPrefix? && prefix == [] then Run(dir, Aborted(NoPrefix))
      else RunConditioned(dir, sel.files, Condition(op, prefix), Transform(op, prefix), answers.confirmation)
  }

  /** A single choice is refused only once files were found: as invalid when
      it names no operation, for a missing prefix exactly when it is "1" and
      the prefix answer is blank. */
  lemma RunSingleRefusals(choice: string, listing: Listing, answers: Answers, dir: set<string>)
    ensures RunSingle(choice, listing, answers, dir).report == Aborted(InvalidChoice)
            <==> SelectFiles(listing, answers.extensions).Selected? && !IsOperationName(choice)
    ensures RunSingle(choice, listing, answers, dir).report == Aborted(NoPrefix)
            <==> SelectFiles(listing, answers.extensions).Selected? && choice == "1" && Strip(answers.prefix) == []
  {
    if IsOperationName(choice) {
      PrefixChoice(choice);
    }
  }

  /** The second half of `process_multiple`, once the operations are parsed
      and put in pipeline order: select the files, read the prefix when the
      pipeline adds one, confirm, and rename every selected file. */
  function RunPipeline(planned: seq<Op>, listing: Listing, answers: Answers, dir: set<string>): (r: Run)
    ensures r.report.Aborted? ==> r.dir == dir
    ensures |r.dir| == |dir|
    ensures r.report.Aborted? ==>
              (r.report.reason.Unselected? || r.report.reason == NoPrefix || r.report.reason == Cancelled)
    ensures r.report == Aborted(NoPrefix)
            <==> SelectFiles(listing, answers.extensions).Selected? && AddPrefix in planned && Strip(answers.prefix) == []
    ensures r.report.Completed? <==>
              SelectFiles(listing, answers.extensions).Selected?
              && !(AddPrefix in planned && Strip(answers.prefix) == []) && Confirmed(answers.confirmation)
    ensures r.report == Aborted(Cancelled) <==>
              SelectFiles(listing, answers.extensions).Selected?
              && !(AddPrefix in planned && Strip(answers.prefix) == []) && !Confirmed(answers.confirmation)
    ensures r.report.Completed? ==>
              r.report.summary.total == |SelectFiles(listing, answers.extensions).files|
              && r.report.summary.skipped == 0
              && r.dir == RenameFiles(dir, SelectFiles(listing, answers.extensions).files,
                                      Pipeline(planned, if AddPrefix in planned then Strip(answers.prefix) else [])).dir
  {
    var sel := SelectFiles(listing, answers.extensions);
    if !sel.Selected? then Run(dir, Aborted(Unselected(sel)))
    else if AddPrefix in planned && Strip(answers.prefix) == [] then Run(dir, Aborted(NoPrefix))
    else
      var prefix := if AddPrefix in planned then Strip(answers.prefix) else [];
      if !Confirmed(answers.confirmation) then Run(dir, Aborted(Cancelled))
      else
        var b := RenameFiles(dir, sel.files, Pipeline(planned, prefix));
        Run(b.dir, Completed(Summarize(b.outcomes, 0)))
  }

  /** `process_multiple`: parse the choice, stop if it names no operation,
      otherwise run the planned pipeline. */
  function RunMultiple(input: string, listing: Listing, answers: Answers, dir: set<string>): (r: Run)
    ensures r.report.Aborted? ==> r.dir == dir
    ensures |r.dir| == |dir|
    ensures r.report.Completed? <==>
              |ParseOps(input)| > 0 && SelectFiles(listing, answers.extensions).Selected?
              && !(AddPrefix in ParseOps(input) && Strip(answers.prefix) == []) && Confirmed(answers.confirmation)
    ensures r.report.Completed? ==>
              r.report.summary.total == |SelectFiles(listing, answers.extensions).files|
              && r.report.summary.skipped == 0
              && r.dir == RenameFiles(dir, SelectFiles(listing, answers.extensions).files,
                                      Pipeline(SortOps(ParseOps(input)),
                                               if AddPrefix in ParseOps(input) then Strip(answers.prefix) else [])).dir
  {
    var ops := ParseOps(input);
    if |ops| == 0 then Run(dir, Aborted(NoValidOperations))
    else
      SortOpsKeepsPlain(ops, AddPrefix);
      RunPipeline(SortOps(ops), listing, answers, dir)
  }

  /** A comma-separated choice is refused exactly when none of its tokens
      names an operation. */
  lemma RunMultipleRefusal(input: string, listing: Listing, answers: Answers, dir: set<string>)
    ensures RunMultiple(input, listing, answers, dir).report == Aborted(NoValidOperations)
            <==> forall i :: 0 <= i < |Tokens(input)| ==> !IsOperationName(Tokens(input)[i])
  {
    NoOperationsIff(input);
    var ops := ParseOps(input);
    if |ops| > 0 {
      assert RunMultiple(input, listing, answers, dir) == RunPipeline(SortOps(ops), listing, answers, dir);
    }
  }

  /** Only which operations were chosen, and how often, matters: two choices
      naming the same operations in any order run the same way. */
  lemma RunMultipleOrderIndependent(a: string, b: string, listing: Listing, answers: Answers, dir: set<string>)
    requires multiset(ParseOps(a)) == multiset(ParseOps(b))
    ensures RunMultiple(a, listing, answers, dir) == RunMultiple(b, listing, answers, dir)
  {
    SortOpsOrderIndependent(ParseOps(a), ParseOps(b));
  }

  /** A choice names no operation exactly when none of its tokens is one. */
  lemma NoOperationsIff(input: string)
    ensures |ParseOps(input)| == 0 <==> forall i :: 0 <= i < |Tokens(input)| ==> !IsOperationName(Tokens(input)[i])
  {
    var ops, tokens := ParseOps(input), Tokens(input);
    if |ops| == 0 {
      forall i | 0 <= i < |tokens|
        ensures !IsOperationName(tokens[i])
      {
        assert tokens[i] in multiset(tokens);
        assert multiset(Ids(ops)) == multiset{};
      }
    } else {
      assert Ids(ops)[0] in multiset(Ids(ops));
      IdIsOperationName(ops[0]);
      assert Ids(ops)[0] in multiset(tokens);
    }
  }

  lemma IdIsOperationName(op: Op)
    requires !op.Unknown?
    ensures IsOperationName(Id(op))
  {
  }

  /** `process_choice`: a choice holding a comma is a pipeline, anything
      else a single operation. Whatever is chosen and answered, a run never
      changes how many names the directory holds, and a run that stops early
      changes nothing. A pipeline goes ahead exactly when it names an
      operation, files were selected, a needed prefix was typed and the user
      confirmed, and then renames every selected file; a single operation
      needs in addition a valid choice and a file its test picks, and renames
      the files its test picks. */
  function RunChoice(choice: string, listing: Listing, answers: Answers, dir: set<string>): (r: Run)
    ensures r.report.Aborted? ==> r.dir == dir
    ensures |r.dir| == |dir|
    ensures r.report == Aborted(InvalidChoice) ==> ',' !in choice
    ensures r.report == Aborted(NoValidOperations) ==> ',' in choice
    ensures ',' in choice ==>
              (r.report.Completed? <==>
                 |ParseOps(choice)| > 0 && SelectFiles(listing, answers.extensions).Selected?
                 && !(AddPrefix in ParseOps(choice) && Strip(answers.prefix) == []) && Confirmed(answers.confirmation))
    ensures ',' in choice && r.report.Completed? ==>
              r.dir == RenameFiles(dir, SelectFiles(listing, answers.extensions).files,
                                   Pipeline(SortOps(ParseOps(choice)),
                                            if AddPrefix in ParseOps(choice) then Strip(answers.prefix) else [])).dir
    ensures ',' !in choice ==>
              (r.report.Completed? <==>
                 SelectFiles(listing, answers.extensions).Selected? && IsOperationName(choice)
                 && !(FromId(choice).AddPrefix? && Strip(answers.prefix) == []) && Confirmed(answers.confirmation)
                 && exists i :: 0 <= i < |SelectFiles(listing, answers.extensions).files|
                                && Condition(FromId(choice), Strip(answers.prefix))(SelectFiles(listing, answers.extensions).files[i]))
    ensures ',' !in choice && r.report.Completed? ==>
              r.dir == RenameFiles(dir, Filter(SelectFiles(listing, answers.extensions).files,
                                               Condition(FromId(choice), Strip(answers.prefix))),
                                   Transform(FromId(choice), Strip(answers.prefix))).dir
  {
    if ',' in choice then RunMultiple(choice, listing, answers, dir)
    else RunSingle(choice, listing, answers, dir)
  }

  /** Renaming only the files a test selects leaves the directory as renaming
      all of them would, when the files it skips would keep their names. */
  lemma {:induction false} SkippingKeepsDirectory(dir: set<string>, files: seq<string>, cond: string -> bool,
                                                   r1: string -> string, r2: string -> string)
    requires forall i :: 0 <= i < |files| ==> r1(files[i]) == r2(files[i])
    requires forall i :: 0 <= i < |files| && !cond(files[i]) ==> r2(files[i]) == files[i]
    ensures RenameFiles(dir, Filter(files, cond), r1).dir == RenameFiles(dir, files, r2).dir
    decreases |files|
  {
    if |files| > 0 {
      var f := files[0];
      assert forall i :: 1 <= i < |files| ==> files[1..][i - 1] == files[i];
      if cond(f) {
        var o := Decide(dir, f, r1(f));
        assert Filter(files, cond) == [f] + Filter(files[1..], cond);
        assert ([f] + Filter(files[1..], cond))[1..] == Filter(files[1..], cond);
        SkippingKeepsDirectory(Apply(dir, f, o), files[1..], cond, r1, r2);
      } else {
        SkippingKeepsDirectory(dir, files[1..], cond, r1, r2);
      }
    }
  }

  /** The operations whose single-operation test is about the name alone. */
  predicate IsUnprefixedOp(op: Op)
  {
    op.ReplaceSpaces? || op.Lowercase? || op.Uppercase? || op.ReplaceSpecial?
  }

  /** Such an operation skips only names it would leave alone, and does not
      look at the prefix. */
  lemma SkippedWouldKeepName(op: Op, prefix: string, f: string)
    requires IsUnprefixedOp(op)
    ensures !Condition(op, prefix)(f) ==> ApplyOp(f, op, prefix) == f
    ensures ApplyOp(f, op, prefix) == ApplyOps(f, [op], [])
  {
    assert ApplyOps(f, [op], []) == ApplyOp(f, op, []);
    match op
    case ReplaceSpaces => SpacesCondition(prefix, f);
    case Lowercase => LowercaseCondition(prefix, f);
    case Uppercase => UppercaseCondition(prefix, f);
    case ReplaceSpecial => SpecialCondition(prefix, f);
  }

  /** Over a whole listing: the single operation renames each file as the
      one-step pipeline would, and the files it skips the pipeline would
      leave alone. */
  lemma SkippedFilesWouldKeepNames(op: Op, prefix: string, files: seq<string>)
    requires IsUnprefixedOp(op)
    ensures forall i :: 0 <= i < |files| ==> Transform(op, prefix)(files[i]) == Pipeline([op], [])(files[i])
    ensures forall i :: 0 <= i < |files| && !Condition(op, prefix)(files[i]) ==>
              Pipeline([op], [])(files[i]) == files[i]
  {
    forall i | 0 <= i < |files|
      ensures Transform(op, prefix)(files[i]) == Pipeline([op], [])(files[i])
      ensures !Condition(op, prefix)(files[i]) ==> Pipeline([op], [])(files[i]) == files[i]
    {
      SkippedWouldKeepName(op, prefix, files[i]);
    }
  }

  /** A confirmed single run of such an operation renames the selected files
      its test picks. */
  lemma SingleDir(op: Op, listing: Listing, answers: Answers, dir: set<string>)
    requires IsUnprefixedOp(op)
    requires SelectFiles(listing, answers.extensions).Selected? && Confirmed(answers.confirmation)
    ensures var files, prefix := SelectFiles(listing, answers.extensions).files, Strip(answers.prefix);
            RunSingle(Id(op), listing, answers, dir).dir
            == RenameFiles(dir, Filter(files, Condition(op, prefix)), Transform(op, prefix)).dir
  {
    var sel := SelectFiles(listing, answers.extensions);
    var prefix := Strip(answers.prefix);
    assert FromId(Id(op)) == op;
    IdIsOperationName(op);
    SingleIsConditioned(Id(op), listing, answers, dir);
  }

  /** Past its refusals, a single run is the conditioned run of its operation. */
  lemma SingleIsConditioned(choice: string, listing: Listing, answers: Answers, dir: set<string>)
    requires SelectFiles(listing, answers.extensions).Selected? && IsOperationName(choice)
    requires !FromId(choice).AddPrefix?
    ensures var op, prefix := FromId(choice), Strip(answers.prefix);
            RunSingle(choice, listing, answers, dir)
            == RunConditioned(dir, SelectFiles(listing, answers.extensions).files,
                              Condition(op, prefix), Transform(op, prefix), answers.confirmation)
  {
  }

  /** A confirmed one-step pipeline of such an operation renames every
      selected file. */
  lemma OneStepPipelineDir(op: Op, listing: Listing, answers: Answers, dir: set<string>)
    requires IsUnprefixedOp(op)
    requires SelectFiles(listing, answers.extensions).Selected? && Confirmed(answers.confirmation)
    ensures RunPipeline([op], listing, answers, dir).dir
            == RenameFiles(dir, SelectFiles(listing, answers.extensions).files, Pipeline([op], [])).dir
  {
    assert !op.AddPrefix? && [op][0] == op;
    assert AddPrefix !in [op];
  }

  /** Renaming the files the single operation selects leaves the directory
      as the one-step pipeline renaming all of them. */
  lemma SingleRenamesAsPipeline(op: Op, prefix: string, dir: set<string>, files: seq<string>)
    requires IsUnprefixedOp(op)
    ensures RenameFiles(dir, Filter(files, Condition(op, prefix)), Transform(op, prefix)).dir
            == RenameFiles(dir, files, Pipeline([op], [])).dir
  {
    SkippedFilesWouldKeepNames(op, prefix, files);
    SkippingKeepsDirectory(dir, files, Condition(op, prefix), Transform(op, prefix), Pipeline([op], []));
  }

  /** For every operation but the prefix, choosing it alone or as a
      one-step pipeline leaves the directory in the same state: the single
      operation only skips files the pipeline would leave alone. */
  lemma SingleAgreesWithPipeline(op: Op, listing: Listing, answers: Answers, dir: set<string>)
    requires IsUnprefixedOp(op)
    ensures RunSingle(Id(op), listing, answers, dir).dir == RunPipeline([op], listing, answers, dir).dir
  {
    var sel := SelectFiles(listing, answers.extensions);
    if sel.Selected? && Confirmed(answers.confirmation) {
      SingleDir(op, listing, answers, dir);
      SingleRenamesAsPipeline(op, Strip(answers.prefix), dir, sel.files);
      OneStepPipelineDir(op, listing, answers, dir);
    } else {
      assert RunSingle(Id(op), listing, answers, dir).report.Aborted?;
      assert RunPipeline([op], listing, answers, dir).report.Aborted?;
    }
  }

  /** A concrete run that shows the summary figure as written going wrong:
      lowercasing a directory holding only "2024" selects that name (it has
      no letter, so it is not lower case), leaves it as it is, and the
      printed error count is 1 although no rename failed. */
  lemma LowercaseNoOpReportedAsError()
    ensures var r := RunSingle("3", Present(["2024"]), Answers("", "", "y"), {"2024"});
            && r.report.Completed?
            && r.report.summary.success == 0 && r.report.summary.errors == 0
            && r.report.summary.sameName == 1
            && ErrorsAsWritten(r.report.summary.success, r.report.summary.total) == 1
  {
    var files := ["2024"];
    var answers := Answers("", "", "y");
    assert Strip("") == [];
    assert SelectFiles(Present(files), "").files == files;
    SingleIsConditioned("3", Present(files), answers, {"2024"});
    LowercaseRun2024();
  }

  /** The conditioned run inside it: "2024" is selected, kept as it is, and
      the run completes with one unchanged name. */
  lemma LowercaseRun2024()
    ensures RunConditioned({"2024"}, ["2024"], Condition(Lowercase, []), Transform(Lowercase, []), "y")
            == Run({"2024"}, Completed(Summarize([SameName], 0)))
    ensures Summarize([SameName], 0) == Summary(0, 0, 1, 0, 1)
  {
    var f := "2024";
    assert !HasCased(f) by {
      forall i | 0 <= i < |f| ensures !IsCased(f[i]) { }
    }
    LowercaseCondition("", f);
    assert Lower(Strip("y")) == "y" by {
      assert Strip("y") == "y" by { StripOfTrimmed("y"); }
    }
    var files := [f];
    var cond := Condition(Lowercase, []);
    assert Filter(files, cond) == files;
    assert Filter(files, Not(cond)) == [];
    var b := RenameFiles({"2024"}, files, Transform(Lowercase, []));
    assert b.outcomes == [SameName];
  }
}

=== FILE: operations.dfy ===
/** The operation planner and the rename pipeline: parsing a comma-separated
    choice into operation identifiers, putting them in the fixed pipeline
    order (`sort_ops`) and folding them over a file name (`apply_ops`).

    The identifiers of `OPERATION_NAMES` are '1' add prefix, '2' replace
    spaces, '3' lowercase, '4' uppercase and '5' replace special characters.
    Any other token is kept as `Unknown`, so that what the source does with it
    (sorted last, applied as a no-op) is part of the model. */
module Operations {
  import opened Seqs
  import opened Text
  import opened SpecialChars

  /** An operation of the pipeline. `Unknown` stands for any other token,
      which `sort_ops` ranks last and `apply_ops` passes over. Its token is
      never one of "1" to "5": `FromId` and `ParseOps` never build such a
      value (see `FromId`'s contract), so `Id` is one to one on every
      operation the model produces. */
  datatype Op = AddPrefix | ReplaceSpaces | Lowercase | Uppercase | ReplaceSpecial
              | Unknown(token: string)

  /** A key of `OPERATION_NAMES`: one of the one-character identifiers
      "1" to "5". */
  predicate IsOperationName(t: string) { |t| == 1 && '1' <= t[0] <= '5' }

  /** The identifier under which an operation is chosen. */
  function Id(op: Op): string
  {
    match op
    case AddPrefix => "1"
    case ReplaceSpaces => "2"
    case Lowercase => "3"
    case Uppercase => "4"
    case ReplaceSpecial => "5"
    case Unknown(t) => t
  }

  /** The operation a token names; identifiers and operations correspond
      one to one. */
  function FromId(t: string): (op: Op)
    ensures Id(op) == t
    ensures IsOperationName(t) <==> !op.Unknown?
  {
    if |t| != 1 then Unknown(t)
    else
      assert t == [t[0]];
      if t[0] == '1' then AddPrefix
      else if t[0] == '2' then ReplaceSpaces
      else if t[0] == '3' then Lowercase
      else if t[0] == '4' then Uppercase
      else if t[0] == '5' then ReplaceSpecial
      else Unknown(t)
  }

  /** The add-prefix operation is the one chosen as "1". */
  lemma PrefixChoice(t: string)
    requires IsOperationName(t)
    ensures FromId(t).AddPrefix? <==> t == "1"
  {
    assert t == [t[0]];
  }

  function Ids(ops: seq<Op>): (r: seq<string>)
    ensures |r| == |ops| && forall i :: 0 <= i < |ops| ==> r[i] == Id(ops[i])
  {
    seq(|ops|, i requires 0 <= i < |ops| => Id(ops[i]))
  }

  function FromIds(ts: seq<string>): (r: seq<Op>)
    ensures |r| == |ts| && forall i :: 0 <= i < |ts| ==> r[i] == FromId(ts[i])
  {
    seq(|ts|, i requires 0 <= i < |ts| => FromId(ts[i]))
  }

  /** The comma-separated pieces of a choice, each stripped of whitespace. */
  function Tokens(input: string): (r: seq<string>)
    ensures |r| == |Split(input, ',')|
    ensures forall i :: 0 <= i < |r| ==> r[i] == Strip(Split(input, ',')[i])
  {
    var parts := Split(input, ',');
    seq(|parts|, i requires 0 <= i < |parts| => Strip(parts[i]))
  }

  /** The parsing loop of `process_multiple`: the stripped tokens that name
      an operation, in the order typed, duplicates kept, everything else
      dropped without complaint. */
  function ParseOps(input: string): (ops: seq<Op>)
    ensures forall i :: 0 <= i < |ops| ==> !ops[i].Unknown?
    ensures IsSubsequence(Ids(ops), Tokens(input))
    ensures forall t :: IsOperationName(t) ==> multiset(Ids(ops))[t] == multiset(Tokens(input))[t]
  {
    var tokens := Tokens(input);
    var kept := Filter(tokens, IsOperationName);
    KeptTokens(tokens);
    var ops := FromIds(kept);
    assert Ids(ops) == kept;
    assert forall i :: 0 <= i < |ops| ==> !ops[i].Unknown? by {
      forall i | 0 <= i < |ops|
        ensures !ops[i].Unknown?
      {
        assert IsOperationName(kept[i]);
        assert ops[i] == FromId(kept[i]);
      }
    }
    ops
  }

  lemma KeptTokens(tokens: seq<string>)
    ensures IsSubsequence(Filter(tokens, IsOperationName), tokens)
    ensures forall t :: IsOperationName(t) ==> multiset(Filter(tokens, IsOperationName))[t] == multiset(tokens)[t]
  {
    FilterMultiset(tokens, IsOperationName);
    FilterSubsequence(tokens, IsOperationName);
  }

  lemma IdFacts(op: Op)
    requires !op.Unknown?
    ensures IsOperationName(Id(op)) && ',' !in Id(op) && Trimmed(Id(op))
  {
  }

  /** Writing operations out comma-separated and parsing them back gives
      the same operations, in the same order. */
  lemma ParseJoinedOps(ops: seq<Op>)
    requires forall i :: 0 <= i < |ops| ==> !ops[i].Unknown?
    ensures ParseOps(Join(Ids(ops), ',')) == ops
  {
    var ids := Ids(ops);
    if |ops| == 0 {
      assert Split(Join(ids, ','), ',') == [[]];
      assert Tokens(Join(ids, ',')) == [[]] by { StripOfTrimmed([]); }
      assert Filter([[]], IsOperationName) == [];
    } else {
      forall i | 0 <= i < |ids|
        ensures ',' !in ids[i] && Strip(ids[i]) == ids[i] && IsOperationName(ids[i])
      {
        IdFacts(ops[i]);
        StripOfTrimmed(ids[i]);
      }
      SplitJoin(ids, ',');
      assert Tokens(Join(ids, ',')) == ids;
      FilterKeepsAll(ids, IsOperationName);
      assert FromIds(ids) == ops;
    }
  }

  /** The `priority` table of `sort_ops`, with `priority.get(x, 5)` for
      anything else. */
  function Priority(op: Op): int
  {
    match op
    case AddPrefix => 1
    case ReplaceSpecial => 2
    case ReplaceSpaces => 3
    case Lowercase => 4
    case Uppercase => 4
    case Unknown(_) => 5
  }

  predicate IsCaseOp(op: Op) { op.Lowercase? || op.Uppercase? }
  predicate IsOtherOp(op: Op) { !IsCaseOp(op) }

  function HasPriority(k: int): Op -> bool
  {
    op => Priority(op) == k
  }

  predicate SortedByPriority(s: seq<Op>)
  {
    forall i, j :: 0 <= i < j < |s| ==> Priority(s[i]) <= Priority(s[j])
  }

  /** Every element of `s` has priority `p` or more. */
  predicate AtLeast(s: seq<Op>, p: int)
  {
    forall i :: 0 <= i < |s| ==> p <= Priority(s[i])
  }

  /** Inserts `x` in front of every element of equal or higher priority. */
  function Insert(x: Op, s: seq<Op>): seq<Op>
  {
    if |s| == 0 then [x]
    else if Priority(x) <= Priority(s[0]) then [x] + s
    else [s[0]] + Insert(x, s[1..])
  }

  /** Insertion adds exactly `x`. */
  lemma {:induction false} InsertMultiset(x: Op, s: seq<Op>)
    ensures multiset(Insert(x, s)) == multiset(s) + multiset{x}
  {
    if |s| > 0 && Priority(x) > Priority(s[0]) {
      InsertMultiset(x, s[1..]);
      assert s == [s[0]] + s[1..];
    }
  }

  lemma InsertPast(x: Op, y: Op, t: seq<Op>)
    requires Priority(x) > Priority(y)
    ensures Insert(x, [y] + t) == [y] + Insert(x, t)
  {
    assert ([y] + t)[1..] == t;
  }

  lemma {:induction false} InsertAtLeast(x: Op, s: seq<Op>, p: int)
    requires AtLeast(s, p) && p <= Priority(x)
    ensures AtLeast(Insert(x, s), p)
  {
    if |s| > 0 && Priority(x) > Priority(s[0]) {
      InsertAtLeast(x, s[1..], p);
    }
  }

  /** Insertion keeps a sequence ordered by priority. */
  lemma {:induction false} InsertSorted(x: Op, s: seq<Op>)
    requires SortedByPriority(s)
    ensures SortedByPriority(Insert(x, s))
  {
    if |s| > 0 && Priority(x) > Priority(s[0]) {
      InsertSorted(x, s[1..]);
      InsertAtLeast(x, s[1..], Priority(s[0]));
    }
  }

  /** Inserting `x` adds it at the front of its own priority class and
      leaves every class's order alone. */
  lemma {:induction false} InsertStable(x: Op, s: seq<Op>, k: int)
    ensures Filter(Insert(x, s), HasPriority(k))
            == (if Priority(x) == k then [x] else []) + Filter(s, HasPriority(k))
  {
    if |s| > 0 {
      if Priority(x) <= Priority(s[0]) {
        assert ([x] + s)[1..] == s;
      } else {
        InsertStable(x, s[1..], k);
        assert ([s[0]] + Insert(x, s[1..]))[1..] == Insert(x, s[1..]);
      }
    }
  }

  /** `list.sort(key=...)`: a stable sort, here by insertion. The result is
      ordered by priority and is a permutation of the input; `SortStable`
      shows it keeps the input order inside each priority class. */
  function SortByPriority(s: seq<Op>): (r: seq<Op>)
    ensures SortedByPriority(r)
  {
    if |s| == 0 then []
    else
      var rest := SortByPriority(s[1..]);
      InsertSorted(s[0], rest);
      Insert(s[0], rest)
  }

  lemma InsertPermutes(x: Op, t: seq<Op>, r: seq<Op>)
    requires multiset(r) == multiset(t)
    ensures multiset(Insert(x, r)) == multiset([x] + t)
  {
    InsertMultiset(x, r);
  }

  /** The sort is a permutation of its input. */
  lemma {:induction false} SortPermutes(s: seq<Op>)
    ensures multiset(SortByPriority(s)) == multiset(s)
  {
    if |s| > 0 {
      var x, t := s[0], s[1..];
      assert s == [x] + t;
      SortPermutes(t);
      InsertPermutes(x, t, SortByPriority(t));
    }
  }

  /** The sort is stable: each priority class comes out in input order. */
  lemma {:induction false} SortStable(s: seq<Op>, k: int)
    ensures Filter(SortByPriority(s), HasPriority(k)) == Filter(s, HasPriority(k))
  {
    if |s| > 0 {
      SortStable(s[1..], k);
      InsertStable(s[0], SortByPriority(s[1..]), k);
      assert s == [s[0]] + s[1..];
    }
  }

  /** Two sequences ordered by priority whose priority classes agree are
      equal: ordering plus stability pin the result down. */
  lemma {:induction false} SortedClassesDetermine(a: seq<Op>, b: seq<Op>)
    requires SortedByPriority(a) && SortedByPriority(b)
    requires forall k :: Filter(a, HasPriority(k)) == Filter(b, HasPriority(k))
    ensures a == b
    decreases |a| + |b|
  {
    if |a| > 0 {
      ClassWitness(a, b, Priority(a[0]));
    }
    if |b| > 0 {
      ClassWitness(b, a, Priority(b[0]));
    }
    if |a| > 0 && |b| > 0 {
      var p := Priority(a[0]);
      assert Priority(b[0]) == p;
      forall k
        ensures Filter(a[1..], HasPriority(k)) == Filter(b[1..], HasPriority(k))
      {
        HeadsOfClasses(a, b, k);
      }
      HeadsOfClasses(a, b, p);
      SortedClassesDetermine(a[1..], b[1..]);
      assert a == [a[0]] + a[1..] && b == [b[0]] + b[1..];
    }
  }

  lemma HeadsOfClasses(a: seq<Op>, b: seq<Op>, k: int)
    requires |a| > 0 && |b| > 0 && Priority(a[0]) == Priority(b[0])
    requires Filter(a, HasPriority(k)) == Filter(b, HasPriority(k))
    ensures Filter(a[1..], HasPriority(k)) == Filter(b[1..], HasPriority(k))
    ensures Priority(a[0]) == k ==> a[0] == b[0]
  {
    var fa, fb := Filter(a, HasPriority(k)), Filter(b, HasPriority(k));
    FilterCons(a, HasPriority(k));
    FilterCons(b, HasPriority(k));
    if Priority(a[0]) == k {
      assert fa[0] == a[0] && fb[0] == b[0];
      assert fa[1..] == Filter(a[1..], HasPriority(k));
      assert fb[1..] == Filter(b[1..], HasPriority(k));
    }
  }

  /** The insertion sort is the stable sort: any arrangement ordered by
      priority that keeps every class in input order is its result. */
  lemma StableSortUnique(s: seq<Op>, r: seq<Op>)
    requires SortedByPriority(r)
    requires forall k :: Filter(r, HasPriority(k)) == Filter(s, HasPriority(k))
    ensures r == SortByPriority(s)
  {
    forall k
      ensures Filter(SortByPriority(s), HasPriority(k)) == Filter(r, HasPriority(k))
    {
      SortStable(s, k);
    }
    SortedClassesDetermine(SortByPriority(s), r);
  }

  /** If `a` holds an element of priority `k`, a sorted `b` with the same
      class `k` starts at priority `k` or lower. */
  lemma ClassWitness(a: seq<Op>, b: seq<Op>, k: int)
    requires SortedByPriority(b)
    requires exists i :: 0 <= i < |a| && Priority(a[i]) == k
    requires Filter(a, HasPriority(k)) == Filter(b, HasPriority(k))
    ensures |b| > 0 && Priority(b[0]) <= k
  {
    var i :| 0 <= i < |a| && Priority(a[i]) == k;
    FilterMultiset(a, HasPriority(k));
    FilterMultiset(b, HasPriority(k));
    assert a[i] in multiset(a);
    assert multiset(Filter(a, HasPriority(k)))[a[i]] > 0;
    assert a[i] in multiset(b);
    var j :| 0 <= j < |b| && b[j] == a[i];
    assert j == 0 || Priority(b[0]) <= Priority(b[j]);
  }

  /** `sort_ops`: the non-case operations stably sorted by priority
      (prefix, special characters, spaces, anything else), then the case
      operations, of which only one uppercase is left when both lowercase and
      uppercase were chosen. Sorting a list holding only '3's or only '4's in
      reverse leaves it as it is, so otherwise the case operations stay as
      chosen. */
  function SortOps(ops: seq<Op>): seq<Op>
  {
    var caseOps := Filter(ops, IsCaseOp);
    var resolved := if Uppercase in caseOps && Lowercase in caseOps then [Uppercase] else caseOps;
    SortByPriority(Filter(ops, IsOtherOp)) + resolved
  }

  /** The pipeline order: every prefix step comes before every other step,
      special characters before spaces, and the case steps last. */
  predicate InPipelineOrder(r: seq<Op>)
  {
    && (forall i, j :: 0 <= i < |r| && 0 <= j < |r| && r[i].AddPrefix? && !r[j].AddPrefix? ==> i < j)
    && (forall i, j :: 0 <= i < |r| && 0 <= j < |r| && r[i].ReplaceSpecial? && r[j].ReplaceSpaces? ==> i < j)
    && (forall i, j :: 0 <= i < |r| && 0 <= j < |r| && !IsCaseOp(r[i]) && IsCaseOp(r[j]) ==> i < j)
  }

  lemma OrderOfConcat(o: seq<Op>, c: seq<Op>)
    requires SortedByPriority(o)
    requires forall i :: 0 <= i < |o| ==> !IsCaseOp(o[i])
    requires forall i :: 0 <= i < |c| ==> IsCaseOp(c[i])
    ensures InPipelineOrder(o + c)
  {
  }

  /** Whatever was chosen, `sort_ops` returns its operations in pipeline order. */
  lemma SortOpsOrder(ops: seq<Op>)
    ensures InPipelineOrder(SortOps(ops))
  {
    var caseOps := Filter(ops, IsCaseOp);
    var others := Filter(ops, IsOtherOp);
    var o := SortByPriority(others);
    SortedOthers(ops);
    OrderOfConcat(o, if Uppercase in caseOps && Lowercase in caseOps then [Uppercase] else caseOps);
  }

  lemma MembershipOfClass(ops: seq<Op>, op: Op)
    requires IsCaseOp(op)
    ensures op in ops <==> op in Filter(ops, IsCaseOp)
  {
    FilterMultiset(ops, IsCaseOp);
    assert op in ops <==> multiset(ops)[op] > 0;
    assert op in Filter(ops, IsCaseOp) <==> multiset(Filter(ops, IsCaseOp))[op] > 0;
  }

  /** The sorted non-case part of `sort_ops`: a permutation of the chosen
      non-case operations, holding no case operation. */
  lemma SortedOthers(ops: seq<Op>)
    ensures multiset(SortByPriority(Filter(ops, IsOtherOp))) == multiset(Filter(ops, IsOtherOp))
    ensures forall i :: 0 <= i < |SortByPriority(Filter(ops, IsOtherOp))| ==>
              !IsCaseOp(SortByPriority(Filter(ops, IsOtherOp))[i])
  {
    var o := SortByPriority(Filter(ops, IsOtherOp));
    SortPermutes(Filter(ops, IsOtherOp));
    forall i | 0 <= i < |o|
      ensures !IsCaseOp(o[i])
    {
      assert o[i] in multiset(o);
    }
  }

  /** The case operations and the other ones split a choice between them. */
  lemma SplitByCase(ops: seq<Op>)
    ensures multiset(ops) == multiset(Filter(ops, IsCaseOp)) + multiset(Filter(ops, IsOtherOp))
  {
    FilterMultiset(ops, IsCaseOp);
    FilterMultiset(ops, IsOtherOp);
  }

  /** Conflict resolution: with both lowercase and uppercase chosen, the
      result is the other operations plus exactly one uppercase and no
      lowercase. */
  lemma SortOpsResolvesConflict(ops: seq<Op>)
    requires Lowercase in ops && Uppercase in ops
    ensures multiset(SortOps(ops)) == multiset(Filter(ops, IsOtherOp)) + multiset{Uppercase}
    ensures multiset(SortOps(ops))[Uppercase] == 1 && Lowercase !in SortOps(ops)
    ensures SortOps(ops)[|SortOps(ops)| - 1] == Uppercase
  {
    var o := SortByPriority(Filter(ops, IsOtherOp));
    MembershipOfClass(ops, Uppercase);
    MembershipOfClass(ops, Lowercase);
    SortedOthers(ops);
    assert SortOps(ops) == o + [Uppercase];
    UppercaseAppended(o, Filter(ops, IsOtherOp));
  }

  /** One uppercase step after steps that are no case operations. */
  lemma UppercaseAppended(o: seq<Op>, others: seq<Op>)
    requires multiset(o) == multiset(others)
    requires forall i :: 0 <= i < |o| ==> !IsCaseOp(o[i])
    ensures multiset(o + [Uppercase]) == multiset(others) + multiset{Uppercase}
    ensures multiset(o + [Uppercase])[Uppercase] == 1 && Lowercase !in o + [Uppercase]
    ensures (o + [Uppercase])[|o|] == Uppercase
  {
    assert Uppercase !in multiset(o);
    assert Lowercase !in o;
  }

  /** Without that conflict `sort_ops` only reorders: every chosen operation
      is kept, as often as it was chosen. */
  lemma SortOpsPermutes(ops: seq<Op>)
    requires !(Lowercase in ops && Uppercase in ops)
    ensures multiset(SortOps(ops)) == multiset(ops)
  {
    MembershipOfClass(ops, Uppercase);
    MembershipOfClass(ops, Lowercase);
    SortedOthers(ops);
    SplitByCase(ops);
  }

  /** The last step is uppercase whenever uppercase was chosen, and
      lowercase when only lowercase was. */
  lemma SortOpsLastStep(ops: seq<Op>)
    requires Uppercase in ops || Lowercase in ops
    ensures |SortOps(ops)| > 0
    ensures SortOps(ops)[|SortOps(ops)| - 1] == if Uppercase in ops then Uppercase else Lowercase
  {
    var caseOps := Filter(ops, IsCaseOp);
    MembershipOfClass(ops, Uppercase);
    MembershipOfClass(ops, Lowercase);
    if !(Lowercase in ops && Uppercase in ops) {
      var x := if Uppercase in ops then Uppercase else Lowercase;
      var y := if Uppercase in ops then Lowercase else Uppercase;
      CaseRun(ops, x, y);
      FilterMultiset(ops, IsCaseOp);
      assert caseOps[|caseOps| - 1] == x;
    }
  }

  /** The valid operations that are not case operations. */
  predicate IsPlainOp(op: Op) { op.AddPrefix? || op.ReplaceSpecial? || op.ReplaceSpaces? }

  /** The sorted shape of valid non-case operations: all prefix steps, then
      all special-character steps, then all space steps. */
  function Runs(a: nat, b: nat, c: nat): seq<Op>
  {
    Repeat(AddPrefix, a) + Repeat(ReplaceSpecial, b) + Repeat(ReplaceSpaces, c)
  }

  lemma RunsCons(a: nat, b: nat, c: nat)
    ensures a > 0 ==> Runs(a, b, c) == [AddPrefix] + Runs(a - 1, b, c)
    ensures a == 0 && b > 0 ==> Runs(a, b, c) == [ReplaceSpecial] + Runs(0, b - 1, c)
    ensures a == 0 && b == 0 && c > 0 ==> Runs(a, b, c) == [ReplaceSpaces] + Runs(0, 0, c - 1)
  {
    var A, B, C := Repeat(AddPrefix, a), Repeat(ReplaceSpecial, b), Repeat(ReplaceSpaces, c);
    if a > 0 {
      assert A == [AddPrefix] + Repeat(AddPrefix, a - 1);
    } else if b > 0 {
      assert B == [ReplaceSpecial] + Repeat(ReplaceSpecial, b - 1);
    } else if c > 0 {
      assert C == [ReplaceSpaces] + Repeat(ReplaceSpaces, c - 1);
    }
  }

  /** Inserting one more operation into the sorted shape lengthens its run. */
  lemma InsertPrefixRuns(a: nat, b: nat, c: nat)
    ensures Insert(AddPrefix, Runs(a, b, c)) == Runs(a + 1, b, c)
  {
    RunsCons(a, b, c);
    RunsCons(a + 1, b, c);
  }

  lemma {:induction false} InsertSpecialRuns(a: nat, b: nat, c: nat)
    ensures Insert(ReplaceSpecial, Runs(a, b, c)) == Runs(a, b + 1, c)
  {
    RunsCons(a, b, c);
    if a > 0 {
      InsertSpecialRuns(a - 1, b, c);
      InsertPast(ReplaceSpecial, AddPrefix, Runs(a - 1, b, c));
      RunsCons(a, b + 1, c);
    } else {
      RunsCons(0, b + 1, c);
    }
  }

  lemma {:induction false} InsertSpacesRuns(a: nat, b: nat, c: nat)
    ensures Insert(ReplaceSpaces, Runs(a, b, c)) == Runs(a, b, c + 1)
    decreases a + b
  {
    RunsCons(a, b, c);
    if a > 0 {
      InsertSpacesRuns(a - 1, b, c);
      InsertPast(ReplaceSpaces, AddPrefix, Runs(a - 1, b, c));
      RunsCons(a, b, c + 1);
    } else if b > 0 {
      InsertSpacesRuns(0, b - 1, c);
      InsertPast(ReplaceSpaces, ReplaceSpecial, Runs(0, b - 1, c));
      RunsCons(0, b, c + 1);
    } else {
      RunsCons(0, 0, c + 1);
    }
  }

  /** Stably sorting valid non-case operations gives their sorted shape,
      which depends only on how often each was chosen. */
  lemma {:induction false} SortRuns(s: seq<Op>)
    requires forall i :: 0 <= i < |s| ==> IsPlainOp(s[i])
    ensures SortByPriority(s)
            == Runs(multiset(s)[AddPrefix], multiset(s)[ReplaceSpecial], multiset(s)[ReplaceSpaces])
  {
    if |s| > 0 {
      var x, t := s[0], s[1..];
      assert s == [x] + t;
      var m, ms := multiset(t), multiset(s);
      assert ms == m + multiset{x};
      SortRuns(t);
      var a, b, c := m[AddPrefix], m[ReplaceSpecial], m[ReplaceSpaces];
      if x.AddPrefix? {
        assert ms[AddPrefix] == a + 1 && ms[ReplaceSpecial] == b && ms[ReplaceSpaces] == c;
        InsertPrefixRuns(a, b, c);
      } else if x.ReplaceSpecial? {
        assert ms[AddPrefix] == a && ms[ReplaceSpecial] == b + 1 && ms[ReplaceSpaces] == c;
        InsertSpecialRuns(a, b, c);
      } else {
        assert ms[AddPrefix] == a && ms[ReplaceSpecial] == b && ms[ReplaceSpaces] == c + 1;
        InsertSpacesRuns(a, b, c);
      }
    }
  }

  /** Closed form of the planner on chosen operations: it depends only on
      how many times each operation was chosen. */
  function Canonical(m: multiset<Op>): seq<Op>
  {
    Runs(m[AddPrefix], m[ReplaceSpecial], m[ReplaceSpaces]) + CaseTail(m)
  }

  /** The case steps of the closed form. */
  function CaseTail(m: multiset<Op>): seq<Op>
  {
    if m[Lowercase] > 0 && m[Uppercase] > 0 then [Uppercase]
    else Repeat(Uppercase, m[Uppercase]) + Repeat(Lowercase, m[Lowercase])
  }

  /** The case operations of a choice holding only one of the two kinds
      are a run of that kind. */
  lemma CaseRun(ops: seq<Op>, x: Op, y: Op)
    requires IsCaseOp(x) && IsCaseOp(y) && x != y
    requires y !in ops
    ensures Filter(ops, IsCaseOp) == Repeat(x, multiset(ops)[x])
  {
    var caseOps := Filter(ops, IsCaseOp);
    FilterMultiset(ops, IsCaseOp);
    forall i | 0 <= i < |caseOps|
      ensures caseOps[i] == x
    {
      assert caseOps[i] in multiset(caseOps);
    }
    AllEqualIsRepeat(caseOps, x);
  }

  /** The sorted non-case part of `sort_ops` on valid operations is the
      sorted shape of how often each was chosen. */
  lemma OthersCanonical(ops: seq<Op>)
    requires forall i :: 0 <= i < |ops| ==> !ops[i].Unknown?
    ensures SortByPriority(Filter(ops, IsOtherOp))
            == Runs(multiset(ops)[AddPrefix], multiset(ops)[ReplaceSpecial], multiset(ops)[ReplaceSpaces])
  {
    var others := Filter(ops, IsOtherOp);
    OthersArePlain(ops);
    SortRuns(others);
    OtherCounts(ops);
  }

  /** Without unknown operations, the non-case operations are plain ones. */
  lemma OthersArePlain(ops: seq<Op>)
    requires forall i :: 0 <= i < |ops| ==> !ops[i].Unknown?
    ensures forall i :: 0 <= i < |Filter(ops, IsOtherOp)| ==> IsPlainOp(Filter(ops, IsOtherOp)[i])
  {
    var others := Filter(ops, IsOtherOp);
    FilterMultiset(ops, IsOtherOp);
    forall i | 0 <= i < |others|
      ensures IsPlainOp(others[i])
    {
      assert others[i] in multiset(others);
      assert others[i] in ops;
    }
  }

  /** The non-case operations hold every plain operation as often as the choice. */
  lemma OtherCounts(ops: seq<Op>)
    ensures multiset(Filter(ops, IsOtherOp))[AddPrefix] == multiset(ops)[AddPrefix]
    ensures multiset(Filter(ops, IsOtherOp))[ReplaceSpecial] == multiset(ops)[ReplaceSpecial]
    ensures multiset(Filter(ops, IsOtherOp))[ReplaceSpaces] == multiset(ops)[ReplaceSpaces]
  {
    FilterMultiset(ops, IsOtherOp);
  }

  /** The resolved case part of `sort_ops` is the closed form's case steps. */
  lemma CasesCanonical(ops: seq<Op>)
    ensures var caseOps := Filter(ops, IsCaseOp);
            (if Uppercase in caseOps && Lowercase in caseOps then [Uppercase] else caseOps)
            == CaseTail(multiset(ops))
  {
    var m := multiset(ops);
    MembershipOfClass(ops, Uppercase);
    MembershipOfClass(ops, Lowercase);
    if m[Lowercase] == 0 {
      CaseRun(ops, Uppercase, Lowercase);
      assert Repeat(Lowercase, m[Lowercase]) == [];
    } else if m[Uppercase] == 0 {
      CaseRun(ops, Lowercase, Uppercase);
      assert Repeat(Uppercase, m[Uppercase]) == [];
    }
  }

  /** For operations that passed the `OPERATION_NAMES` filter, `sort_ops`
      computes the closed form. */
  lemma SortOpsIsCanonical(ops: seq<Op>)
    requires forall i :: 0 <= i < |ops| ==> !ops[i].Unknown?
    ensures SortOps(ops) == Canonical(multiset(ops))
  {
    OthersCanonical(ops);
    CasesCanonical(ops);
  }

  /** The planner does not depend on the order in which operations were typed. */
  lemma SortOpsOrderIndependent(a: seq<Op>, b: seq<Op>)
    requires forall i :: 0 <= i < |a| ==> !a[i].Unknown?
    requires forall i :: 0 <= i < |b| ==> !b[i].Unknown?
    requires multiset(a) == multiset(b)
    ensures SortOps(a) == SortOps(b)
  {
    SortOpsIsCanonical(a);
    SortOpsIsCanonical(b);
  }

  /** `r` is `s` with every space turned into '_' and every other character kept. */
  predicate Underscored(s: string, r: string)
  {
    |r| == |s| && forall i :: 0 <= i < |s| ==> r[i] == if s[i] == ' ' then '_' else s[i]
  }

  lemma SpacesKeepLength(name: string)
    ensures |ReplaceChar(name, ' ', "_")| == |name|
  {
    ReplaceCharPointwise(name, ' ', "_");
  }

  /** One step of `apply_ops`. */
  function ApplyOp(name: string, op: Op, prefix: string): (r: string)
    ensures op.AddPrefix? ==> r == prefix + name
    ensures op.ReplaceSpaces? ==> |r| == |name| && ' ' !in r
    ensures op.ReplaceSpecial? ==> !HasSpecialChars(r)
    ensures op.Unknown? ==> r == name
  {
    match op
    case AddPrefix => prefix + name
    case ReplaceSpaces =>
      SpacesKeepLength(name);
      ReplaceChar(name, ' ', "_")
    case Lowercase => Lower(name)
    case Uppercase => Upper(name)
    case ReplaceSpecial => ReplaceSpecialChars(name)
    case Unknown(_) => name
  }

  /** The space step turns each space into '_' and keeps every other character. */
  lemma SpacesStepUnderscores(name: string, prefix: string)
    ensures Underscored(name, ApplyOp(name, ReplaceSpaces, prefix))
  {
    ReplaceCharPointwise(name, ' ', "_");
  }

  /** `apply_ops`: the operations applied left to right. */
  function ApplyOps(name: string, ops: seq<Op>, prefix: string): string
    decreases |ops|
  {
    if |ops| == 0 then name
    else ApplyOps(ApplyOp(name, ops[0], prefix), ops[1..], prefix)
  }

  /** A pipeline of unrecognised operations, the empty one included, leaves
      the name as it is. */
  lemma {:induction false} UnknownOpsKeepName(name: string, ops: seq<Op>, prefix: string)
    requires forall i :: 0 <= i < |ops| ==> ops[i].Unknown?
    ensures ApplyOps(name, ops, prefix) == name
    decreases |ops|
  {
    if |ops| > 0 {
      UnknownOpsKeepName(name, ops[1..], prefix);
    }
  }

  /** Running two pipelines one after the other is running their concatenation. */
  lemma {:induction false} ApplyOpsAppend(name: string, a: seq<Op>, b: seq<Op>, prefix: string)
    ensures ApplyOps(name, a + b, prefix) == ApplyOps(ApplyOps(name, a, prefix), b, prefix)
    decreases |a|
  {
    if |a| == 0 {
      assert a + b == b;
    } else {
      assert (a + b)[0] == a[0] && (a + b)[1..] == a[1..] + b;
      ApplyOpsAppend(ApplyOp(name, a[0], prefix), a[1..], b, prefix);
    }
  }

  /** Keeping only uppercase when both case operations were chosen renames
      exactly as lowercasing and then uppercasing would. */
  lemma CaseResolutionPreservesResult(name: string, ops: seq<Op>, prefix: string)
    ensures ApplyOps(name, ops + [Lowercase, Uppercase], prefix) == ApplyOps(name, ops + [Uppercase], prefix)
  {
    ApplyOpsAppend(name, ops, [Lowercase, Uppercase], prefix);
    ApplyOpsAppend(name, ops, [Uppercase], prefix);
    UpperAfterLower(ApplyOps(name, ops, prefix));
  }

  lemma SpecialIsNonAscii(c: char)
    requires IsSpecial(c)
    ensures c >= '\U{80}'
  {
    var j :| 0 <= j < |Table| && Table[j].0 == c;
  }

  /** Uppercasing never makes a special character: the only capitals in the
      table are 'Ä', 'Ö' and 'Ü', whose small letters are keys themselves. */
  lemma UpperOfNonSpecial(c: char)
    requires !IsSpecial(c)
    ensures !IsSpecial(UpperChar(c))
  {
    assert Table[0].0 == 'ä' && Table[1].0 == 'ö' && Table[2].0 == 'ü';
    forall j | 0 <= j < |Table|
      ensures Table[j].0 != UpperChar(c)
    {
    }
  }

  lemma UpperKeepsNoSpecial(name: string)
    requires !HasSpecialChars(name)
    ensures !HasSpecialChars(Upper(name))
  {
    forall i | 0 <= i < |name|
      ensures !IsSpecial(Upper(name)[i])
    {
      UpperOfNonSpecial(name[i]);
    }
  }

  /** Steps other than the prefix and lowercasing never bring back a special
      character. Lowercasing can: 'É' is no key, but 'é' is. */
  lemma {:induction false} NoPrefixKeepsNoSpecial(name: string, ops: seq<Op>, prefix: string)
    requires forall i :: 0 <= i < |ops| ==> !ops[i].AddPrefix? && !ops[i].Lowercase?
    requires !HasSpecialChars(name)
    ensures !HasSpecialChars(ApplyOps(name, ops, prefix))
    decreases |ops|
  {
    if |ops| > 0 {
      var next := ApplyOp(name, ops[0], prefix);
      if ops[0].ReplaceSpaces? {
        ReplaceCharPointwise(name, ' ', "_");
        forall i | 0 <= i < |next| && IsSpecial(next[i])
          ensures false
        {
          SpecialIsNonAscii(next[i]);
        }
      } else if ops[0].Uppercase? {
        UpperKeepsNoSpecial(name);
      }
      NoPrefixKeepsNoSpecial(next, ops[1..], prefix);
    }
  }

  /** Steps other than the prefix and the special-character substitution
      never bring back a space. */
  lemma {:induction false} NoPrefixKeepsNoSpace(name: string, ops: seq<Op>, prefix: string)
    requires forall i :: 0 <= i < |ops| ==> !ops[i].AddPrefix? && !ops[i].ReplaceSpecial?
    requires ' ' !in name
    ensures ' ' !in ApplyOps(name, ops, prefix)
    decreases |ops|
  {
    if |ops| > 0 {
      var next := ApplyOp(name, ops[0], prefix);
      if IsCaseOp(ops[0]) {
        forall i | 0 <= i < |next|
          ensures next[i] != ' '
        {
          assert name[i] != ' ';
        }
      }
      NoPrefixKeepsNoSpace(next, ops[1..], prefix);
    }
  }

  /** In pipeline order nothing after a step that is not a prefix step
      adds a prefix. */
  lemma NoPrefixAfter(s: seq<Op>, i: int, rest: seq<Op>)
    requires InPipelineOrder(s) && 0 <= i < |s| && !s[i].AddPrefix?
    requires rest == s[i + 1..]
    ensures forall j :: 0 <= j < |rest| ==> !rest[j].AddPrefix?
  {
    forall j | 0 <= j < |rest|
      ensures !rest[j].AddPrefix?
    {
      assert rest[j] == s[i + 1 + j];
    }
  }

  /** In pipeline order nothing after a space step substitutes special
      characters. */
  lemma NoSpecialAfterSpaces(s: seq<Op>, i: int, rest: seq<Op>)
    requires InPipelineOrder(s) && 0 <= i < |s| && s[i].ReplaceSpaces?
    requires rest == s[i + 1..]
    ensures forall j :: 0 <= j < |rest| ==> !rest[j].ReplaceSpecial?
  {
    forall j | 0 <= j < |rest|
      ensures !rest[j].ReplaceSpecial?
    {
      assert rest[j] == s[i + 1 + j];
    }
  }

  /** An operation other than a case operation is planned exactly when it
      was chosen. */
  lemma SortOpsKeepsPlain(ops: seq<Op>, x: Op)
    requires !IsCaseOp(x)
    ensures x in SortOps(ops) <==> x in ops
  {
    if Lowercase in ops && Uppercase in ops {
      SortOpsResolvesConflict(ops);
      FilterMultiset(ops, IsOtherOp);
    } else {
      SortOpsPermutes(ops);
    }
    assert x in SortOps(ops) <==> x in multiset(SortOps(ops));
    assert x in ops <==> x in multiset(ops);
  }

  /** Choosing uppercase leaves no lower-case letter in the new name,
      whatever else was chosen with it. */
  lemma PlannedUppercase(name: string, ops: seq<Op>, prefix: string)
    requires Uppercase in ops
    ensures NoLower(ApplyOps(name, SortOps(ops), prefix))
  {
    SortOpsLastStep(ops);
    LastStep(name, SortOps(ops), prefix);
  }

  /** Choosing lowercase without uppercase leaves no upper-case letter. */
  lemma PlannedLowercase(name: string, ops: seq<Op>, prefix: string)
    requires Lowercase in ops && Uppercase !in ops
    ensures NoUpper(ApplyOps(name, SortOps(ops), prefix))
  {
    SortOpsLastStep(ops);
    LastStep(name, SortOps(ops), prefix);
  }

  /** Choosing space replacement leaves no space: the prefix and the
      special-character substitution, the only steps that could bring one
      in, are planned before it. */
  lemma PlannedNoSpaces(name: string, ops: seq<Op>, prefix: string)
    requires ReplaceSpaces in ops
    ensures ' ' !in ApplyOps(name, SortOps(ops), prefix)
  {
    var s := SortOps(ops);
    SortOpsKeepsPlain(ops, ReplaceSpaces);
    SortOpsOrder(ops);
    var i :| 0 <= i < |s| && s[i] == ReplaceSpaces;
    StepThenRest(name, s, i, prefix);
    var rest := s[i + 1..];
    NoPrefixAfter(s, i, rest);
    NoSpecialAfterSpaces(s, i, rest);
    var mid := ApplyOps(name, s[..i + 1], prefix);
    assert mid == ApplyOp(ApplyOps(name, s[..i], prefix), ReplaceSpaces, prefix);
    NoPrefixKeepsNoSpace(mid, rest, prefix);
  }

  /** Choosing special-character replacement leaves no special character
      unless the plan ends by lowercasing: the prefix, which could bring one
      in, is planned first, but the case steps come after the replacement and
      lowercasing turns capitals such as 'É' into keys such as 'é'
      (`LowercaseBringsBackSpecial`). */
  lemma PlannedNoSpecial(name: string, ops: seq<Op>, prefix: string)
    requires ReplaceSpecial in ops
    requires Uppercase in ops || Lowercase !in ops
    ensures !HasSpecialChars(ApplyOps(name, SortOps(ops), prefix))
  {
    var s := SortOps(ops);
    SortOpsKeepsPlain(ops, ReplaceSpecial);
    SortOpsOrder(ops);
    NoLowercasePlanned(ops);
    var i :| 0 <= i < |s| && s[i] == ReplaceSpecial;
    var rest := s[i + 1..];
    NoPrefixAfter(s, i, rest);
    assert forall j :: 0 <= j < |rest| ==> rest[j] in s;
    SpecialStepLasts(name, s, i, rest, prefix);
  }

  /** No lowercase step is planned when uppercase was chosen or lowercase was not. */
  lemma NoLowercasePlanned(ops: seq<Op>)
    requires Uppercase in ops || Lowercase !in ops
    ensures Lowercase !in SortOps(ops)
  {
    if Lowercase in ops && Uppercase in ops {
      SortOpsResolvesConflict(ops);
    } else {
      SortOpsPermutes(ops);
      assert Lowercase !in multiset(SortOps(ops));
    }
  }

  /** Under `sort_ops`, "3,5" on "École.txt" plans the replacement first, which
      finds nothing to replace, and then lowercases to "école.txt", which holds
      the key 'é'. */
  lemma LowercaseBringsBackSpecial()
    ensures SortOps([Lowercase, ReplaceSpecial]) == [ReplaceSpecial, Lowercase]
    ensures !HasSpecialChars("École.txt")
    ensures HasSpecialChars(ApplyOps("École.txt", SortOps([Lowercase, ReplaceSpecial]), ""))
  {
    var name := "École.txt";
    LowercaseLast();
    CapitalIsNoKey(name);
    ReplaceChangesIffSpecial(name);
    assert ApplyOps(name, [ReplaceSpecial, Lowercase], "") == Lower(ReplaceSpecialChars(name)) by {
      assert [ReplaceSpecial, Lowercase][1..] == [Lowercase];
    }
    SmallIsKey(name);
  }

  lemma LowercaseLast()
    ensures SortOps([Lowercase, ReplaceSpecial]) == [ReplaceSpecial, Lowercase]
  {
    var ops := [Lowercase, ReplaceSpecial];
    assert Filter(ops, IsCaseOp) == [Lowercase];
    assert Filter(ops, IsOtherOp) == [ReplaceSpecial];
  }

  lemma CapitalIsNoKey(name: string)
    requires name == "École.txt"
    ensures !HasSpecialChars(name)
  {
    forall i, j | 0 <= i < |name| && 0 <= j < |Table|
      ensures Table[j].0 != name[i]
    {
    }
  }

  lemma SmallIsKey(name: string)
    requires name == "École.txt"
    ensures HasSpecialChars(Lower(name))
  {
    assert Lower(name)[0] == 'é' && Table[8].0 == 'é';
  }

  /** A special-character step followed by no prefix step and no lowercase
      step leaves no special character at the end of the pipeline. */
  lemma SpecialStepLasts(name: string, s: seq<Op>, i: int, rest: seq<Op>, prefix: string)
    requires 0 <= i < |s| && s[i].ReplaceSpecial? && rest == s[i + 1..]
    requires forall j :: 0 <= j < |rest| ==> !rest[j].AddPrefix? && !rest[j].Lowercase?
    ensures !HasSpecialChars(ApplyOps(name, s, prefix))
  {
    StepThenRest(name, s, i, prefix);
    var mid := ApplyOps(name, s[..i + 1], prefix);
    NoPrefixKeepsNoSpecial(mid, rest, prefix);
  }

  lemma LastStep(name: string, s: seq<Op>, prefix: string)
    requires |s| > 0
    ensures ApplyOps(name, s, prefix) == ApplyOp(ApplyOps(name, s[..|s| - 1], prefix), s[|s| - 1], prefix)
  {
    var n := |s| - 1;
    assert s == s[..n] + [s[n]];
    ApplyOpsAppend(name, s[..n], [s[n]], prefix);
  }

  lemma StepThenRest(name: string, s: seq<Op>, i: int, prefix: string)
    requires 0 <= i < |s|
    ensures ApplyOps(name, s, prefix) == ApplyOps(ApplyOps(name, s[..i + 1], prefix), s[i + 1..], prefix)
    ensures ApplyOps(name, s[..i + 1], prefix) == ApplyOp(ApplyOps(name, s[..i], prefix), s[i], prefix)
  {
    var head, tail := s[..i + 1], s[i + 1..];
    assert s == head + tail;
    ApplyOpsAppend(name, head, tail, prefix);
    assert head[..|head| - 1] == s[..i] && head[|head| - 1] == s[i];
    LastStep(name, head, prefix);
  }
}

=== FILE: renaming.dfy ===
/** The batch steps shared by every operation: splitting the files into those
    to process and those to skip (`process_files_with_condition`), renaming
    them one by one against the directory (`rename_files`) and the counts of
    the closing summary (`show_summary`).

    The directory is the set of names it holds; a rename moves one name to
    another. */
module Renaming {
  import opened Seqs

  /** The files a condition selects for processing and the ones it skips. */
  datatype Classified = Classified(toProcess: seq<string>, skipped: seq<string>)

  /** The two list comprehensions of `process_files_with_condition`. */
  function Classify(files: seq<string>, cond: string -> bool): (c: Classified)
    ensures forall i :: 0 <= i < |c.toProcess| ==> cond(c.toProcess[i])
    ensures forall i :: 0 <= i < |c.skipped| ==> !cond(c.skipped[i])
  {
    Classified(Filter(files, cond), Filter(files, Not(cond)))
  }

  /** Both lists keep the listing order and together hold every file
      exactly as often as the listing does. */
  lemma ClassifyPartitions(files: seq<string>, cond: string -> bool)
    ensures IsSubsequence(Classify(files, cond).toProcess, files)
    ensures IsSubsequence(Classify(files, cond).skipped, files)
    ensures multiset(Classify(files, cond).toProcess) + multiset(Classify(files, cond).skipped)
            == multiset(files)
    ensures |Classify(files, cond).toProcess| + |Classify(files, cond).skipped| == |files|
  {
    FilterSubsequence(files, cond);
    FilterSubsequence(files, Not(cond));
    FilterSplit(files, cond);
  }

  /** There is nothing to process exactly when no file meets the condition. */
  lemma NothingToProcessIff(files: seq<string>, cond: string -> bool)
    ensures |Classify(files, cond).toProcess| == 0 <==> forall i :: 0 <= i < |files| ==> !cond(files[i])
  {
    FilterMultiset(files, cond);
    if |Classify(files, cond).toProcess| == 0 {
      forall i | 0 <= i < |files|
        ensures !cond(files[i])
      {
        assert files[i] in multiset(files);
      }
    } else {
      assert Classify(files, cond).toProcess[0] in multiset(Classify(files, cond).toProcess);
    }
  }

  /** What happened to one file of the batch. */
  datatype Outcome =
    | Renamed(newName: string)   // moved to its new name, counted as a success
    | SameName                   // the new name is the old one: nothing to do
    | NameTaken(newName: string) // another file already has the new name
    | Failed                     // the move itself failed: the file was not there

  /** The decision of `rename_files` for one file, given the names the
      directory holds at that moment. */
  function Decide(dir: set<string>, file: string, newName: string): (o: Outcome)
    ensures o.Renamed? <==> file != newName && newName !in dir && file in dir
    ensures o.SameName? <==> file == newName
    ensures o.NameTaken? <==> file != newName && newName in dir
    ensures o.Failed? <==> file != newName && newName !in dir && file !in dir
    ensures o.Renamed? ==> o.newName == newName
  {
    if file == newName then SameName
    else if newName in dir then NameTaken(newName)
    else if file !in dir then Failed
    else Renamed(newName)
  }

  /** The directory after one decision: only a rename changes it. */
  function Apply(dir: set<string>, file: string, o: Outcome): (d: set<string>)
    requires o.Renamed? ==> file != o.newName && o.newName !in dir && file in dir
    ensures |d| == |dir|
    ensures o.Renamed? ==> file !in d && o.newName in d
    ensures forall n :: n in d && n !in dir ==> o == Renamed(n)
    ensures forall n :: n in dir && n !in d ==> n == file && o.Renamed?
  {
    if o.Renamed? then
      assert |dir - {file}| == |dir| - 1;
      dir - {file} + {o.newName}
    else dir
  }

  /** The directory after a batch and what happened to each file. */
  datatype Batch = Batch(dir: set<string>, outcomes: seq<Outcome>)

  /** `rename_files`: the files renamed one after the other, each decision
      made against the directory the earlier ones left. The directory keeps
      its size: a name is only ever moved, never lost or overwritten. */
  function RenameFiles(dir: set<string>, files: seq<string>, rename: string -> string): (b: Batch)
    ensures |b.outcomes| == |files|
    ensures |b.dir| == |dir|
    decreases |files|
  {
    if |files| == 0 then Batch(dir, [])
    else
      var o := Decide(dir, files[0], rename(files[0]));
      var rest := RenameFiles(Apply(dir, files[0], o), files[1..], rename);
      Batch(rest.dir, [o] + rest.outcomes)
  }

  /** A file keeps its name exactly when the new name is the old one. */
  lemma {:induction false} SameNameIff(dir: set<string>, files: seq<string>, rename: string -> string)
    ensures forall i :: 0 <= i < |files| ==>
              (RenameFiles(dir, files, rename).outcomes[i].SameName? <==> rename(files[i]) == files[i])
    decreases |files|
  {
    if |files| > 0 {
      var o := Decide(dir, files[0], rename(files[0]));
      SameNameIff(Apply(dir, files[0], o), files[1..], rename);
    }
  }

  /** Nothing else changes: every name in the directory afterwards was there
      before or is the new name of a renamed file, and every name that is
      gone was the old name of a renamed file. */
  lemma {:induction false} OnlyRenamesChange(dir: set<string>, files: seq<string>, rename: string -> string)
    ensures forall n :: n in RenameFiles(dir, files, rename).dir && n !in dir ==>
              Renamed(n) in RenameFiles(dir, files, rename).outcomes
    ensures forall n :: n in dir && n !in RenameFiles(dir, files, rename).dir ==>
              exists i :: 0 <= i < |files| && files[i] == n && RenameFiles(dir, files, rename).outcomes[i].Renamed?
    decreases |files|
  {
    if |files| > 0 {
      var o := Decide(dir, files[0], rename(files[0]));
      var d := Apply(dir, files[0], o);
      var b := RenameFiles(dir, files, rename);
      OnlyRenamesChange(d, files[1..], rename);
      var rest := RenameFiles(d, files[1..], rename);
      assert b.outcomes == [o] + rest.outcomes;
      forall n | n in dir && n !in b.dir
        ensures exists i :: 0 <= i < |files| && files[i] == n && b.outcomes[i].Renamed?
      {
        if n in d {
          var j :| 0 <= j < |files[1..]| && files[1..][j] == n && rest.outcomes[j].Renamed?;
          assert files[j + 1] == n && b.outcomes[j + 1].Renamed?;
        } else {
          assert files[0] == n && b.outcomes[0].Renamed?;
        }
      }
    }
  }

  /** When the files are distinct names listed from the directory, none of
      them can have vanished before its turn, so no move fails. */
  lemma {:induction false} ListedFilesNeverFail(dir: set<string>, files: seq<string>, rename: string -> string)
    requires Distinct(files)
    requires forall i :: 0 <= i < |files| ==> files[i] in dir
    ensures forall i :: 0 <= i < |files| ==> !RenameFiles(dir, files, rename).outcomes[i].Failed?
    decreases |files|
  {
    if |files| > 0 {
      var o := Decide(dir, files[0], rename(files[0]));
      var d := Apply(dir, files[0], o);
      forall i | 0 <= i < |files[1..]|
        ensures files[1..][i] in d
      {
        assert files[1..][i] == files[i + 1] && files[i + 1] != files[0];
      }
      assert Distinct(files[1..]) by {
        forall i, j | 0 <= i < j < |files[1..]|
          ensures files[1..][i] != files[1..][j]
        {
          assert files[1..][i] == files[i + 1] && files[1..][j] == files[j + 1];
        }
      }
      ListedFilesNeverFail(d, files[1..], rename);
    }
  }

  /** The success counter of `rename_files`. */
  function Successes(os: seq<Outcome>): (n: nat)
    ensures n <= |os|
  {
    if |os| == 0 then 0 else (if os[0].Renamed? then 1 else 0) + Successes(os[1..])
  }

  function Unchanged(os: seq<Outcome>): (n: nat)
    ensures n <= |os|
  {
    if |os| == 0 then 0 else (if os[0].SameName? then 1 else 0) + Unchanged(os[1..])
  }

  /** The files that could not be renamed: name taken or move failed. */
  function Errors(os: seq<Outcome>): (n: nat)
    ensures n <= |os|
  {
    if |os| == 0 then 0 else (if os[0].NameTaken? || os[0].Failed? then 1 else 0) + Errors(os[1..])
  }

  /** Every outcome is exactly one of a success, an error or a file left
      alone. */
  lemma {:induction false} CountsAddUp(os: seq<Outcome>)
    ensures Successes(os) + Errors(os) + Unchanged(os) == |os|
  {
    if |os| > 0 {
      CountsAddUp(os[1..]);
    }
  }

  /** `rename_files` as the loop it is: the running success counter and the
      directory it leaves are the batch's. */
  method RenameLoop(dir: set<string>, files: seq<string>, rename: string -> string)
    returns (successCount: nat, finalDir: set<string>)
    ensures successCount == Successes(RenameFiles(dir, files, rename).outcomes)
    ensures finalDir == RenameFiles(dir, files, rename).dir
    ensures successCount <= |files| && |finalDir| == |dir|
  {
    successCount := 0;
    finalDir := dir;
    var i := 0;
    while i < |files|
      invariant 0 <= i <= |files|
      invariant successCount + Successes(RenameFiles(finalDir, files[i..], rename).outcomes)
                == Successes(RenameFiles(dir, files, rename).outcomes)
      invariant RenameFiles(finalDir, files[i..], rename).dir == RenameFiles(dir, files, rename).dir
      invariant |finalDir| == |dir|
      decreases |files| - i
    {
      var file := files[i];
      var o := Decide(finalDir, file, rename(file));
      RenameStep(finalDir, files, i, rename);
      if o.Renamed? {
        successCount := successCount + 1;
      }
      finalDir := Apply(finalDir, file, o);
      i := i + 1;
    }
  }

  /** One turn of the loop is the first step of the fold over the rest. */
  lemma RenameStep(dir: set<string>, files: seq<string>, i: nat, rename: string -> string)
    requires i < |files|
    ensures var o := Decide(dir, files[i], rename(files[i]));
            var rest := RenameFiles(Apply(dir, files[i], o), files[i + 1..], rename);
            RenameFiles(dir, files[i..], rename) == Batch(rest.dir, [o] + rest.outcomes)
            && Successes(RenameFiles(dir, files[i..], rename).outcomes)
               == (if o.Renamed? then 1 else 0) + Successes(rest.outcomes)
  {
    assert files[i..][0] == files[i] && files[i..][1..] == files[i + 1..];
    var o := Decide(dir, files[i], rename(files[i]));
    var rest := RenameFiles(Apply(dir, files[i], o), files[i + 1..], rename);
    assert ([o] + rest.outcomes)[1..] == rest.outcomes;
  }

  /** The figures `show_summary` prints, with files that kept their name
      counted on their own. */
  datatype Summary = Summary(success: nat, errors: nat, sameName: nat, skipped: nat, total: nat)

  /** The summary of a batch: every processed file is a success, an error or
      unchanged, and the total is the number of files processed. */
  function Summarize(os: seq<Outcome>, skipped: nat): (s: Summary)
    ensures s.success + s.errors + s.sameName == s.total == |os|
    ensures s.skipped == skipped
    ensures s.success == Successes(os) && s.sameName == Unchanged(os)
  {
    CountsAddUp(os);
    Summary(Successes(os), Errors(os), Unchanged(os), skipped, |os|)
  }

  /** The error figure as `show_summary` computes it: everything processed
      that did not succeed. */
  function ErrorsAsWritten(success: nat, total: nat): int
  {
    total - success
  }

  /** The printed error figure is never negative, but it counts the files
      that kept their name as errors: it is the real errors plus those. */
  lemma ErrorsAsWrittenCountsUnchanged(os: seq<Outcome>)
    ensures ErrorsAsWritten(Successes(os), |os|) >= 0
    ensures ErrorsAsWritten(Successes(os), |os|) == Errors(os) + Unchanged(os)
    ensures ErrorsAsWritten(Successes(os), |os|) == Errors(os) <==> Unchanged(os) == 0
  {
    CountsAddUp(os);
  }
}

=== FILE: seqs.dfy ===
/** Generic sequence helpers shared by the file-name model: order-preserving
    filtering (Python's `[x for x in s if p(x)]`), subsequences, repetition and
    duplicate-freedom. */
module Seqs {

  /** `a` can be obtained from `b` by deleting elements (order is kept). */
  predicate IsSubsequence<T(==)>(a: seq<T>, b: seq<T>)
    decreases |b|
  {
    if |a| == 0 then true
    else if |b| == 0 then false
    else (a[0] == b[0] && IsSubsequence(a[1..], b[1..])) || IsSubsequence(a, b[1..])
  }

  /** Every sequence is a subsequence of itself. */
  lemma {:induction false} IsSubsequenceRefl<T>(s: seq<T>)
    ensures IsSubsequence(s, s)
  {
    if |s| > 0 {
      IsSubsequenceRefl(s[1..]);
    }
  }

  /** No element occurs twice. */
  predicate Distinct<T(==)>(s: seq<T>)
  {
    forall i, j :: 0 <= i < j < |s| ==> s[i] != s[j]
  }

  /** The elements of `s` satisfying `p`, in their original order. */
  function Filter<T>(s: seq<T>, p: T -> bool): (r: seq<T>)
    ensures |r| <= |s|
    ensures forall i :: 0 <= i < |r| ==> p(r[i])
  {
    if |s| == 0 then []
    else if p(s[0]) then [s[0]] + Filter(s[1..], p)
    else Filter(s[1..], p)
  }

  /** Filtering a non-empty sequence decides about its head first. */
  lemma FilterCons<T>(s: seq<T>, p: T -> bool)
    requires |s| > 0
    ensures Filter(s, p) == (if p(s[0]) then [s[0]] else []) + Filter(s[1..], p)
  {
  }

  /** The negation of a test. */
  function Not<T>(p: T -> bool): T -> bool
  {
    x => !p(x)
  }

  /** A test and its negation split a sequence between them: every element
      lands on exactly one side, as often as it occurs. */
  lemma {:induction false} FilterSplit<T>(s: seq<T>, p: T -> bool)
    ensures multiset(Filter(s, p)) + multiset(Filter(s, Not(p))) == multiset(s)
    ensures |Filter(s, p)| + |Filter(s, Not(p))| == |s|
  {
    if |s| > 0 {
      FilterSplit(s[1..], p);
      assert s == [s[0]] + s[1..];
    }
  }

  /** Filtering keeps every passing element as often as it occurs and drops
      every other one. */
  lemma {:induction false} FilterMultiset<T(!new)>(s: seq<T>, p: T -> bool)
    ensures forall x :: multiset(Filter(s, p))[x] == if p(x) then multiset(s)[x] else 0
  {
    if |s| > 0 {
      FilterMultiset(s[1..], p);
      assert s == [s[0]] + s[1..];
    }
  }

  /** Filtering keeps the original order. */
  lemma {:induction false} FilterSubsequence<T>(s: seq<T>, p: T -> bool)
    ensures IsSubsequence(Filter(s, p), s)
  {
    if |s| > 0 {
      FilterSubsequence(s[1..], p);
      var r := Filter(s, p);
      if p(s[0]) {
        assert r[1..] == Filter(s[1..], p);
      }
    }
  }

  /** `n` copies of `x`. */
  function Repeat<T>(x: T, n: nat): (r: seq<T>)
    ensures |r| == n
    ensures forall i :: 0 <= i < n ==> r[i] == x
  {
    if n == 0 then [] else [x] + Repeat(x, n - 1)
  }

  /** Filtering distributes over concatenation. */
  lemma {:induction false} FilterAppend<T>(a: seq<T>, b: seq<T>, p: T -> bool)
    ensures Filter(a + b, p) == Filter(a, p) + Filter(b, p)
    decreases |a|
  {
    if |a| == 0 {
      assert a + b == b;
    } else {
      assert (a + b)[1..] == a[1..] + b;
      assert (a + b)[0] == a[0];
      FilterAppend(a[1..], b, p);
    }
  }

  /** A sequence whose elements all equal `x` is determined by how often `x` occurs. */
  lemma {:induction false} AllEqualIsRepeat<T>(s: seq<T>, x: T)
    requires forall i :: 0 <= i < |s| ==> s[i] == x
    ensures s == Repeat(x, multiset(s)[x])
  {
    if |s| > 0 {
      assert s == [s[0]] + s[1..];
      AllEqualIsRepeat(s[1..], x);
    }
  }

  /** Every element of a subsequence occurs (at least as often) in the sequence. */
  lemma {:induction false} SubsequenceMultiset<T>(a: seq<T>, b: seq<T>)
    requires IsSubsequence(a, b)
    ensures multiset(a) <= multiset(b)
    decreases |b|
  {
    if |a| > 0 {
      assert b == [b[0]] + b[1..];
      if a[0] == b[0] && IsSubsequence(a[1..], b[1..]) {
        SubsequenceMultiset(a[1..], b[1..]);
        assert a == [a[0]] + a[1..];
      } else {
        SubsequenceMultiset(a, b[1..]);
      }
    }
  }

  /** A subsequence of a duplicate-free sequence is duplicate-free. */
  lemma {:induction false} SubsequenceDistinct<T>(a: seq<T>, b: seq<T>)
    requires IsSubsequence(a, b)
    requires Distinct(b)
    ensures Distinct(a)
    decreases |b|
  {
    if |a| > 0 {
      if a[0] == b[0] && IsSubsequence(a[1..], b[1..]) {
        SubsequenceDistinct(a[1..], b[1..]);
        SubsequenceMultiset(a[1..], b[1..]);
        forall j | 0 < j < |a|
          ensures a[0] != a[j]
        {
          assert a[j] == a[1..][j - 1];
          assert a[j] in multiset(a[1..]);
          assert a[j] in multiset(b[1..]);
          assert a[j] in b[1..];
        }
        forall i, j | 0 <= i < j < |a|
          ensures a[i] != a[j]
        {
          if i > 0 {
            assert a[i] == a[1..][i - 1] && a[j] == a[1..][j - 1];
          }
        }
      } else {
        SubsequenceDistinct(a, b[1..]);
      }
    }
  }

  /** Filtering keeps a sequence whole exactly when every element passes. */
  lemma {:induction false} FilterKeepsAll<T>(s: seq<T>, p: T -> bool)
    requires forall i :: 0 <= i < |s| ==> p(s[i])
    ensures Filter(s, p) == s
  {
    if |s| > 0 {
      FilterKeepsAll(s[1..], p);
      assert s == [s[0]] + s[1..];
    }
  }

  /** Filtering a run of copies keeps all of them or none. */
  lemma {:induction false} FilterRepeat<T>(x: T, n: nat, p: T -> bool)
    ensures Filter(Repeat(x, n), p) == if p(x) then Repeat(x, n) else []
  {
    if n > 0 {
      FilterRepeat(x, n - 1, p);
      assert Repeat(x, n)[1..] == Repeat(x, n - 1);
    }
  }
}

=== FILE: special_chars.dfy ===
/** The fixed table of accented and special characters and the substitution
    loop that runs through it (`SPECIAL_CHAR_REPLACEMENTS`,
    `replace_special_chars`, and operation '5' of `apply_ops`). */
module SpecialChars {
  import opened Text

  /** One entry of the table: a character and its ASCII replacement. */
  type Entry = (char, string)

  /** `SPECIAL_CHAR_REPLACEMENTS` in declaration order, which is the order in
      which a Python dict is iterated: 24 entries, the umlauts and 'ß'
      replaced by two letters, every other character by one. */
  const Table: seq<Entry> := [
    ('ä', "ae"), ('ö', "oe"), ('ü', "ue"), ('ß', "ss"),
    ('Ä', "Ae"), ('Ö', "Oe"), ('Ü', "Ue"),
    ('á', "a"), ('é', "e"), ('í', "i"), ('ó', "o"), ('ú', "u"),
    ('à', "a"), ('è', "e"), ('ì', "i"), ('ò', "o"), ('ù', "u"),
    ('â', "a"), ('ê', "e"), ('î', "i"), ('ô', "o"), ('û', "u"),
    ('ç', "c"), ('ñ', "n")
  ]

  predicate IsKeyOf(c: char, table: seq<Entry>)
  {
    exists j :: 0 <= j < |table| && table[j].0 == c
  }

  /** A key of `SPECIAL_CHAR_REPLACEMENTS`. */
  predicate IsSpecial(c: char)
  {
    IsKeyOf(c, Table)
  }

  /** `has_special_chars`: some character of the name is a key of the table. */
  predicate HasSpecialChars(s: string)
  {
    exists i :: 0 <= i < |s| && IsSpecial(s[i])
  }

  /** No replacement text contains any key: the property that makes the
      sequential loop behave like a one-pass translation. */
  predicate ValuesFree(table: seq<Entry>)
  {
    forall i, j :: 0 <= i < |table| && 0 <= j < |table| ==> table[j].0 !in table[i].1
  }

  /** The sequential loop `for old, new in table: s = s.replace(old, new)`. */
  function ReplaceAll(s: string, table: seq<Entry>): string
    decreases |table|
  {
    if |table| == 0 then s
    else ReplaceAll(ReplaceChar(s, table[0].0, table[0].1), table[1..])
  }

  /** What a single character turns into under a one-pass reading of the
      table: the replacement of the first entry with that key, or itself. */
  function Image(c: char, table: seq<Entry>): string
  {
    if |table| == 0 then [c]
    else if table[0].0 == c then table[0].1
    else Image(c, table[1..])
  }

  /** Reference definition: every character is translated on its own, once. */
  function Translate(s: string, table: seq<Entry>): string
  {
    if |s| == 0 then [] else Image(s[0], table) + Translate(s[1..], table)
  }

  lemma {:induction false} TranslateAppend(a: string, b: string, table: seq<Entry>)
    ensures Translate(a + b, table) == Translate(a, table) + Translate(b, table)
  {
    if |a| == 0 {
      assert a + b == b;
    } else {
      assert (a + b)[1..] == a[1..] + b;
      TranslateAppend(a[1..], b, table);
    }
  }

  /** Text without any key of the table translates to itself. */
  lemma {:induction false} TranslateNoKeys(s: string, table: seq<Entry>)
    requires forall i :: 0 <= i < |s| ==> !IsKeyOf(s[i], table)
    ensures Translate(s, table) == s
  {
    if |s| > 0 {
      ImageNonKey(s[0], table);
      TranslateNoKeys(s[1..], table);
      assert s == [s[0]] + s[1..];
    }
  }

  lemma {:induction false} ImageNonKey(c: char, table: seq<Entry>)
    requires !IsKeyOf(c, table)
    ensures Image(c, table) == [c]
  {
    if |table| > 0 {
      assert table[0].0 != c;
      NotKeyOfTail(c, table);
      ImageNonKey(c, table[1..]);
    }
  }

  lemma NotKeyOfTail(c: char, table: seq<Entry>)
    requires |table| > 0 && !IsKeyOf(c, table)
    ensures !IsKeyOf(c, table[1..])
  {
    forall j | 0 <= j < |table[1..]|
      ensures table[1..][j].0 != c
    {
      assert table[1..][j] == table[j + 1];
    }
  }

  /** A character translates to itself when it is not a key, and otherwise
      to one of the table's replacement texts. */
  lemma {:induction false} ImageIsValueOrSelf(c: char, table: seq<Entry>)
    ensures (!IsKeyOf(c, table) && Image(c, table) == [c])
            || (exists j :: 0 <= j < |table| && Image(c, table) == table[j].1)
  {
    if |table| > 0 && table[0].0 != c {
      ImageIsValueOrSelf(c, table[1..]);
      if !IsKeyOf(c, table[1..]) && Image(c, table[1..]) == [c] {
        forall j | 0 <= j < |table|
          ensures table[j].0 != c
        {
          if j > 0 { assert table[j] == table[1..][j - 1]; }
        }
      } else {
        var j :| 0 <= j < |table[1..]| && Image(c, table[1..]) == table[1..][j].1;
        assert table[1..][j] == table[j + 1];
      }
    }
  }

  /** Translating one character never produces a key of the table. */
  lemma ImageHasNoKeys(c: char, table: seq<Entry>)
    requires ValuesFree(table)
    ensures forall d :: d in Image(c, table) ==> !IsKeyOf(d, table)
  {
    ImageIsValueOrSelf(c, table);
  }

  lemma {:induction false} TranslateHasNoKeys(s: string, table: seq<Entry>)
    requires ValuesFree(table)
    ensures forall d :: d in Translate(s, table) ==> !IsKeyOf(d, table)
  {
    if |s| > 0 {
      ImageHasNoKeys(s[0], table);
      TranslateHasNoKeys(s[1..], table);
    }
  }

  /** Replacing the first key and then translating by the rest of the table
      is translating by the whole table. */
  lemma {:induction false} TranslateAfterReplace(s: string, table: seq<Entry>)
    requires |table| > 0
    requires ValuesFree(table)
    ensures Translate(ReplaceChar(s, table[0].0, table[0].1), table[1..]) == Translate(s, table)
  {
    var (k, v) := table[0];
    var rest := table[1..];
    if |s| > 0 {
      TranslateAfterReplace(s[1..], table);
      var head := if s[0] == k then v else [s[0]];
      assert ReplaceChar(s, k, v) == head + ReplaceChar(s[1..], k, v);
      TranslateAppend(head, ReplaceChar(s[1..], k, v), rest);
      if s[0] == k {
        forall i, j | 0 <= i < |v| && 0 <= j < |rest|
          ensures rest[j].0 != v[i]
        {
          assert rest[j] == table[j + 1];
        }
        TranslateNoKeys(v, rest);
      } else {
        assert Translate([s[0]], rest) == Image(s[0], rest) + Translate([], rest);
      }
    }
  }

  /** The sequential replacement loop is a one-pass character translation
      when no replacement text contains a key. */
  lemma {:induction false} SequentialIsTranslation(s: string, table: seq<Entry>)
    requires ValuesFree(table)
    ensures ReplaceAll(s, table) == Translate(s, table)
    decreases |table|
  {
    if |table| > 0 {
      assert ValuesFree(table[1..]) by {
        forall i, j | 0 <= i < |table[1..]| && 0 <= j < |table[1..]|
          ensures table[1..][j].0 !in table[1..][i].1
        {
          assert table[1..][j] == table[j + 1] && table[1..][i] == table[i + 1];
        }
      }
      SequentialIsTranslation(ReplaceChar(s, table[0].0, table[0].1), table[1..]);
      TranslateAfterReplace(s, table);
    } else {
      TranslateNoKeys(s, table);
    }
  }

  /** Every value of the table is plain ASCII while every key is not. */
  lemma TableValuesFree()
    ensures ValuesFree(Table)
  {
    assert forall i :: 0 <= i < |Table| ==> Table[i].0 >= '\U{80}';
    assert forall i :: 0 <= i < |Table| ==> forall d :: d in Table[i].1 ==> d < '\U{80}';
  }

  /** `replace_special_chars`: the table's substitutions applied in order.
      The result holds no key of the table, and equals the one-pass
      translation of each character. */
  function ReplaceSpecialChars(s: string): (r: string)
    ensures forall i :: 0 <= i < |r| ==> !IsSpecial(r[i])
    ensures r == Translate(s, Table)
  {
    SubstitutionFacts(s);
    ReplaceAll(s, Table)
  }

  lemma SubstitutionFacts(s: string)
    ensures ReplaceAll(s, Table) == Translate(s, Table)
    ensures forall i :: 0 <= i < |ReplaceAll(s, Table)| ==> !IsSpecial(ReplaceAll(s, Table)[i])
  {
    TableValuesFree();
    SequentialIsTranslation(s, Table);
    TranslateHasNoKeys(s, Table);
    var r := ReplaceAll(s, Table);
    forall i | 0 <= i < |r|
      ensures !IsSpecial(r[i])
    {
      assert r[i] in r;
    }
  }

  /** Replacing special characters twice is replacing them once. */
  lemma ReplaceSpecialCharsIdempotent(s: string)
    ensures ReplaceSpecialChars(ReplaceSpecialChars(s)) == ReplaceSpecialChars(s)
  {
    var r := ReplaceSpecialChars(s);
    TranslateNoKeys(r, Table);
  }

  /** A name holding a special character is changed by the substitution. */
  lemma SpecialIsChanged(s: string, i: int)
    requires 0 <= i < |s| && IsSpecial(s[i])
    ensures ReplaceSpecialChars(s) != s
  {
    var r := ReplaceSpecialChars(s);
    if i < |r| {
      assert !IsSpecial(r[i]);
    }
  }

  /** The skip test of the special-character operation is exact: a name is
      changed by the substitution if and only if it has a special character. */
  lemma ReplaceChangesIffSpecial(s: string)
    ensures ReplaceSpecialChars(s) != s <==> HasSpecialChars(s)
  {
    if !HasSpecialChars(s) {
      TranslateNoKeys(s, Table);
    } else {
      var i :| 0 <= i < |s| && IsSpecial(s[i]);
      SpecialIsChanged(s, i);
    }
  }
}

=== FILE: text.dfy ===
/** The handful of Python `str` operations the file-name manager relies on:
    `strip()`, `split(sep)`, `replace(old, new)` for a one-character `old`,
    `lower()`/`upper()`/`islower()`/`isupper()` (on the ASCII and Latin-1
    letter pairs only),
    `startswith` and `endswith`. */
module Text {

  /** Python's `str.isspace()`: the 29 Unicode whitespace characters
      (tab to carriage return, the four information separators, space, NEL,
      no-break space, the Ogham space, the U+2000 block of spaces, the line and
      paragraph separators, narrow no-break space, medium mathematical space and
      the ideographic space). */
  predicate IsSpace(c: char)
  {
    ('\t' <= c <= '\r') || ('\U{1C}' <= c <= '\U{1F}') || c == ' '
    || c == '\U{85}' || c == '\U{A0}' || c == '\U{1680}'
    || ('\U{2000}' <= c <= '\U{200A}') || c == '\U{2028}' || c == '\U{2029}'
    || c == '\U{202F}' || c == '\U{205F}' || c == '\U{3000}'
  }

  predicate AllSpace(s: string)
  {
    forall i :: 0 <= i < |s| ==> IsSpace(s[i])
  }

  /** Neither end of `s` is whitespace. */
  predicate Trimmed(s: string)
  {
    |s| == 0 || (!IsSpace(s[0]) && !IsSpace(s[|s| - 1]))
  }

  /** The first position at or after `i` that is not whitespace, or the end. */
  function SkipSpace(s: string, i: nat): (k: nat)
    requires i <= |s|
    ensures i <= k <= |s|
    ensures forall m :: i <= m < k ==> IsSpace(s[m])
    ensures k == |s| || !IsSpace(s[k])
    decreases |s| - i
  {
    if i < |s| && IsSpace(s[i]) then SkipSpace(s, i + 1) else i
  }

  /** The end of the text before position `j`, once the whitespace just
      before `j` is dropped, going no further back than `lo`. */
  function SkipSpaceBack(s: string, lo: nat, j: nat): (e: nat)
    requires lo <= j <= |s|
    ensures lo <= e <= j
    ensures forall m :: e <= m < j ==> IsSpace(s[m])
    ensures e == lo || !IsSpace(s[e - 1])
    decreases j
  {
    if lo < j && IsSpace(s[j - 1]) then SkipSpaceBack(s, lo, j - 1) else j
  }

  /** How much whitespace `strip()` removes from the front. */
  function LeadingSpace(s: string): (k: nat)
    ensures k <= |s|
  {
    SkipSpace(s, 0)
  }

  /** Where the text `strip()` keeps ends. */
  function TextEnd(s: string): (e: nat)
    ensures LeadingSpace(s) <= e <= |s|
  {
    SkipSpaceBack(s, LeadingSpace(s), |s|)
  }

  /** Python's `s.strip()`: whitespace removed from both ends. */
  function Strip(s: string): string
  {
    s[LeadingSpace(s)..TextEnd(s)]
  }

  /** The stripped text neither starts nor ends with whitespace. */
  lemma StripTrimmed(s: string)
    ensures Trimmed(Strip(s))
  {
    var k, e := LeadingSpace(s), TextEnd(s);
    if k < e {
      assert Strip(s)[0] == s[k] && Strip(s)[e - k - 1] == s[e - 1];
    }
  }

  /** The original is the stripped text wrapped in whitespace. */
  lemma StripWraps(s: string)
    ensures s == s[..LeadingSpace(s)] + Strip(s) + s[TextEnd(s)..]
    ensures AllSpace(s[..LeadingSpace(s)]) && AllSpace(s[TextEnd(s)..])
  {
    var k, e := LeadingSpace(s), TextEnd(s);
    assert s == s[..k] + s[k..e] + s[e..];
    assert forall m :: 0 <= m < k ==> s[..k][m] == s[m];
    assert forall m :: 0 <= m < |s| - e ==> s[e..][m] == s[e + m];
  }

  /** Stripping removes everything exactly when the text is blank. */
  lemma StripEmptyIffBlank(s: string)
    ensures Strip(s) == [] <==> AllSpace(s)
  {
    var k, e := LeadingSpace(s), TextEnd(s);
    if k < e {
      assert !IsSpace(s[k]);
    }
  }

  /** Text with no whitespace at either end is left alone by stripping. */
  lemma StripOfTrimmed(s: string)
    requires Trimmed(s)
    ensures Strip(s) == s
  {
    if |s| > 0 {
      assert LeadingSpace(s) == 0;
      assert TextEnd(s) == |s|;
    }
  }

  /** Stripping twice is stripping once. */
  lemma StripIdempotent(s: string)
    ensures Strip(Strip(s)) == Strip(s)
  {
    StripTrimmed(s);
    StripOfTrimmed(Strip(s));
  }

  /** Python's `s.split(sep)` with an explicit separator: the pieces between
      the separators, so there is always at least one piece. */
  function Split(s: string, sep: char): (r: seq<string>)
    ensures |r| >= 1
    ensures forall i :: 0 <= i < |r| ==> sep !in r[i]
    ensures Join(r, sep) == s
  {
    if |s| == 0 then [[]]
    else
      var rest := Split(s[1..], sep);
      if s[0] == sep then
        assert Join([[]] + rest, sep) == [sep] + Join(rest, sep);
        assert s == [sep] + s[1..];
        [[]] + rest
      else
        var r := [[s[0]] + rest[0]] + rest[1..];
        assert rest == [rest[0]] + rest[1..];
        JoinHead(s[0], rest, sep);
        assert s == [s[0]] + s[1..];
        r
  }

  /** Python's `sep.join(parts)`. */
  function Join(parts: seq<string>, sep: char): string
  {
    if |parts| == 0 then []
    else if |parts| == 1 then parts[0]
    else parts[0] + [sep] + Join(parts[1..], sep)
  }

  lemma JoinHead(c: char, parts: seq<string>, sep: char)
    requires |parts| >= 1
    ensures Join([[c] + parts[0]] + parts[1..], sep) == [c] + Join(parts, sep)
  {
    var q := [[c] + parts[0]] + parts[1..];
    assert q[1..] == parts[1..];
  }

  /** Splitting undoes joining, as long as no piece contains the separator. */
  lemma {:induction false} SplitJoin(parts: seq<string>, sep: char)
    requires |parts| >= 1
    requires forall i :: 0 <= i < |parts| ==> sep !in parts[i]
    ensures Split(Join(parts, sep), sep) == parts
    decreases |parts|, |parts[0]|
  {
    var p := parts[0];
    if |p| == 0 {
      if |parts| > 1 {
        SplitJoin(parts[1..], sep);
        var s := Join(parts, sep);
        assert s == [sep] + Join(parts[1..], sep);
        assert s[1..] == Join(parts[1..], sep);
        assert parts == [[]] + parts[1..];
      }
    } else {
      var q := [p[1..]] + parts[1..];
      assert q[1..] == parts[1..];
      SplitJoin(q, sep);
      JoinHead(p[0], q, sep);
      assert [p[0]] + p[1..] == p;
      assert [[p[0]] + q[0]] + q[1..] == parts;
      var s := Join(parts, sep);
      assert s == [p[0]] + Join(q, sep);
      assert s[1..] == Join(q, sep);
      assert s[0] == p[0] && p[0] != sep;
    }
  }

  /** Python's `s.replace(c, t)` for a single character `c`: every occurrence
      of `c` is replaced by `t`, left to right. */
  function ReplaceChar(s: string, c: char, t: string): (r: string)
    ensures forall d :: d in r ==> (d in s && d != c) || d in t
    ensures c in r ==> c in t
    ensures c !in s ==> r == s
  {
    if |s| == 0 then []
    else
      var rest := ReplaceChar(s[1..], c, t);
      assert s == [s[0]] + s[1..];
      (if s[0] == c then t else [s[0]]) + rest
  }

  /** With a one-character replacement every position is kept and only the
      occurrences of `c` change. */
  lemma {:induction false} ReplaceCharPointwise(s: string, c: char, t: string)
    requires |t| == 1
    ensures |ReplaceChar(s, c, t)| == |s|
    ensures forall i :: 0 <= i < |s| ==>
              ReplaceChar(s, c, t)[i] == if s[i] == c then t[0] else s[i]
  {
    if |s| > 0 {
      ReplaceCharPointwise(s[1..], c, t);
    }
  }

  /** The capitals whose small letter lies 32 code points above them, the
      ASCII and Latin-1 ones: 'A' to 'Z', 'À' to 'Ö' and 'Ø' to 'Þ'. */
  predicate IsUpperLetter(c: char)
  {
    'A' <= c <= 'Z' || ('\U{C0}' <= c <= '\U{DE}' && c != '\U{D7}')
  }

  /** Their small letters: 'a' to 'z', 'à' to 'ö' and 'ø' to 'þ'. */
  predicate IsLowerLetter(c: char)
  {
    'a' <= c <= 'z' || ('\U{E0}' <= c <= '\U{FE}' && c != '\U{F7}')
  }

  /** A character Python calls cased, restricted to those letter pairs. */
  predicate IsCased(c: char) { IsUpperLetter(c) || IsLowerLetter(c) }

  function LowerChar(c: char): char
  {
    if IsUpperLetter(c) then (c as int + 32) as char else c
  }

  function UpperChar(c: char): char
  {
    if IsLowerLetter(c) then (c as int - 32) as char else c
  }

  predicate NoUpper(s: string) { forall i :: 0 <= i < |s| ==> !IsUpperLetter(s[i]) }
  predicate NoLower(s: string) { forall i :: 0 <= i < |s| ==> !IsLowerLetter(s[i]) }
  predicate HasCased(s: string) { exists i :: 0 <= i < |s| && IsCased(s[i]) }

  /** Python's `s.lower()` on the letter pairs: every capital becomes its own
      small letter, and every character that is not a capital is kept. */
  function Lower(s: string): (r: string)
    ensures |r| == |s| && NoUpper(r)
    ensures forall i :: 0 <= i < |s| ==> IsUpperLetter(s[i]) ==> r[i] as int == s[i] as int + 32
    ensures forall i :: 0 <= i < |s| ==> !IsUpperLetter(s[i]) ==> r[i] == s[i]
    ensures forall i :: 0 <= i < |s| ==> (IsCased(r[i]) <==> IsCased(s[i]))
  {
    seq(|s|, i requires 0 <= i < |s| => LowerChar(s[i]))
  }

  /** Python's `s.upper()` on the letter pairs: every small letter becomes
      its own capital, and every other character is kept. */
  function Upper(s: string): (r: string)
    ensures |r| == |s| && NoLower(r)
    ensures forall i :: 0 <= i < |s| ==> IsLowerLetter(s[i]) ==> r[i] as int == s[i] as int - 32
    ensures forall i :: 0 <= i < |s| ==> !IsLowerLetter(s[i]) ==> r[i] == s[i]
    ensures forall i :: 0 <= i < |s| ==> (IsCased(r[i]) <==> IsCased(s[i]))
  {
    seq(|s|, i requires 0 <= i < |s| => UpperChar(s[i]))
  }

  /** Python's `s.islower()`: some cased character, and none of them upper case. */
  predicate IsLower(s: string) { HasCased(s) && NoUpper(s) }

  /** Python's `s.isupper()`: some cased character, and none of them lower case. */
  predicate IsUpper(s: string) { HasCased(s) && NoLower(s) }

  /** Lowercasing changes a name exactly when it holds an upper-case letter,
      so `not islower()` holds of names lowercasing would change and of names
      without any letter. */
  lemma LowerFixedIffNoUpper(s: string)
    ensures Lower(s) == s <==> NoUpper(s)
    ensures !IsLower(s) <==> Lower(s) != s || !HasCased(s)
  {
    if !NoUpper(s) {
      var i :| 0 <= i < |s| && IsUpperLetter(s[i]);
      assert Lower(s)[i] != s[i];
    }
  }

  lemma UpperFixedIffNoLower(s: string)
    ensures Upper(s) == s <==> NoLower(s)
    ensures !IsUpper(s) <==> Upper(s) != s || !HasCased(s)
  {
    if !NoLower(s) {
      var i :| 0 <= i < |s| && IsLowerLetter(s[i]);
      assert Upper(s)[i] != s[i];
    }
  }

  /** Lowercasing before uppercasing makes no difference, which is why a
      pipeline holding both case operations can keep only the upper-case one. */
  lemma UpperAfterLower(s: string)
    ensures Upper(Lower(s)) == Upper(s)
  {
    assert forall i :: 0 <= i < |s| ==> UpperChar(LowerChar(s[i])) == UpperChar(s[i]);
  }

  /** Likewise uppercasing before lowercasing makes no difference. */
  lemma LowerAfterUpper(s: string)
    ensures Lower(Upper(s)) == Lower(s)
  {
    assert forall i :: 0 <= i < |s| ==> LowerChar(UpperChar(s[i])) == LowerChar(s[i]);
  }

  /** Uppercasing undoes lowercasing on a text without small letters. */
  lemma UpperUndoesLower(s: string)
    requires NoLower(s)
    ensures Upper(Lower(s)) == s
  {
    assert forall i :: 0 <= i < |s| ==> UpperChar(LowerChar(s[i])) == s[i];
  }

  /** Lowercasing undoes uppercasing on a text without capitals. */
  lemma LowerUndoesUpper(s: string)
    requires NoUpper(s)
    ensures Lower(Upper(s)) == s
  {
    assert forall i :: 0 <= i < |s| ==> LowerChar(UpperChar(s[i])) == s[i];
  }

  /** Case mapping leaves characters that are not letters alone, so it
      commutes with putting one in front. */
  lemma LowerCons(c: char, s: string)
    requires !IsCased(c)
    ensures Lower([c] + s) == [c] + Lower(s)
  {
  }

  /** Lowercasing works character by character, so it distributes over
      concatenation. */
  lemma LowerAppend(a: string, b: string)
    ensures Lower(a + b) == Lower(a) + Lower(b)
  {
    assert forall i :: 0 <= i < |a| ==> (a + b)[i] == a[i];
    assert forall i :: |a| <= i < |a| + |b| ==> (a + b)[i] == b[i - |a|];
  }

  lemma LowerIdempotent(s: string)
    ensures Lower(Lower(s)) == Lower(s)
  {
    LowerFixedIffNoUpper(Lower(s));
  }

  lemma UpperIdempotent(s: string)
    ensures Upper(Upper(s)) == Upper(s)
  {
    UpperFixedIffNoLower(Upper(s));
  }

  /** Python's `s.startswith(p)`. */
  predicate StartsWith(s: string, p: string)
  {
    |p| <= |s| && s[..|p|] == p
  }

  /** Python's `s.endswith(e)`. */
  predicate EndsWith(s: string, e: string)
  {
    |e| <= |s| && s[|s| - |e|..] == e
  }
}
